=== FILE: README.md ===
# Bouncr token signing, credential parsing and method authorization, in Dafny

This project models three parts of the Bouncr security components:

- the JSON Web Signature component `JsonWebToken`. It signs a header and a payload into the compact form `header.payload.signature` and verifies such a token back into its claims. The model includes its value types `JwtHeader` and `JwtClaim`.
- the authentication backend `BouncrBackend`:
  - `parse` reads the `x-bouncr-credential` request header and verifies the token it holds;
  - `authenticate` turns the verified claim map into a `UserPermissionPrincipal`.
- the middleware `AuthorizeControllerMethodMiddleware`. It lets a request reach a controller method marked `@RolesAllowed` only when the principal is a `UserPrincipal` whose `hasPermission` accepts one of the listed roles. Any `UserPrincipal` is allowed, not only the one the backend builds.

The model also covers the Java library behaviour the code relies on:

- `String.split(regex, limit)` and `String.join` (module `JavaText`);
- the JDK URL-safe base64 encoder and decoder (`Base64Url`);
- `int` overflow in `String.hashCode`/`Objects.hash` and `Objects.equals` (`JavaObjects`);
- the objects Jackson reads a JSON document into, and their `Objects.toString` (`JsonValues`).

Two collaborators are function-valued parameters rather than fixed definitions:

- the Jackson `ObjectMapper`, as a `Codec`: a pair of functions, value to bytes and bytes to value;
- the `java.security.Signature` provider, as a `SignPrimitive`: algorithm name, key, random draw and input text give signature bytes or a checked exception.

Every property therefore holds for every mapper and every signature scheme that meets the hypotheses the property names. Those hypotheses are in `JwsProperties`:

- `ReadsBack`: the mapper reads back what it wrote;
- `Deterministic`: signing does not depend on the random draw;
- `Available`: the provider is installed, so signing never reports a missing algorithm or provider;
- `KeyBound`: different keys give different signatures.

Exceptions that leave a public method become a `Failure` of a `Result`. `ThreadingUtils.some(...).orElse(null)` becomes an `Option`: an exception or a `null` anywhere in the chain gives `None`.

## Behaviour worth knowing

The model follows the code in each case.

- **Padding.** The encoder is `Base64.getUrlEncoder()`, which pads with `=`, so signed tokens may contain `=`, although section 2 of RFC 7515 specifies base64url without padding. The decoder is the strict JDK one: it accepts a missing final padding, or exactly the right padding.
- **Wrong segment count.** `"a.b"` gives `null`. But `split("\\.", 3)` keeps every further dot in the third segment, so `"a.b.c.d"` has three parts, and its header `"a"` throws `IllegalArgumentException` from the base64 decoder: `unsign("a.b.c.d")` throws instead of returning `null`. Through `BouncrBackend.parse` the exception is swallowed, so there the result is `null` again.
- **Verification re-signs.** Verification signs the signing input again with the same private key, and compares the base64 text with the third segment (lines 64-68). It does not use a public-key verification primitive.
  - HS* and RS* tokens therefore verify only when signing is deterministic.
  - A PS* token fails whenever the second signature's random salt differs (`RandomizedResignRejected`).
- **Header errors.** An undecodable header segment propagates as `IllegalArgumentException`. An unparsable one propagates as `UncheckedIOException`.
- **`none`.** The `none` algorithm verifies any third segment, with any key.
- **Sign failures.** A failure of the signature provider while signing is reported as `MisconfigurationException` (here `SigningFailed`). A missing algorithm is reported as `UnreachableException`.

## Model

| member | source | states |
|---|---|---|
| Algorithms.Lookup | src/main/java/net/unit8/bouncr/sign/JsonWebToken.java:30-41 | Only a present identifier can resolve, and the provider name "none" comes back exactly for the identifier `none`. |
| Algorithms.LookupMatchesNaming | src/main/java/net/unit8/bouncr/sign/JsonWebToken.java:30-41 | The identifiers that resolve are exactly `none` and a family HS/RS/PS followed by 256/384/512. Each resolves to the Java name its family and digest size call for. |
| Algorithms.ListedIsRegistered | src/main/java/net/unit8/bouncr/sign/JsonWebToken.java:30-41 | Every row of the table follows that naming scheme. |
| Algorithms.LookupIsCaseSensitive | src/main/java/net/unit8/bouncr/sign/JsonWebToken.java:58 | Other spellings of listed identifiers ("hs256", "NONE", "Rs256") do not resolve. |
| Algorithms.LookupNull | src/main/java/net/unit8/bouncr/sign/JsonWebToken.java:58-59 | A `null` algorithm does not resolve, so it is reported as a misconfiguration. |
| Base64Url.Encode | src/main/java/net/unit8/bouncr/sign/JsonWebToken.java:152 | The encoder writes whole groups of four characters, using only URL-safe alphabet characters and `=`. |
| Base64Url.Decode | src/main/java/net/unit8/bouncr/sign/JsonWebToken.java:151 | The decoder accepts only texts made of alphabet characters and `=`. |
| Base64Url.DecodeEncode | src/main/java/net/unit8/bouncr/sign/JsonWebToken.java:151-152 | Decoding the encoder's text gives back the bytes, for every byte string. |
| Base64Url.EncodeInjective | src/main/java/net/unit8/bouncr/sign/JsonWebToken.java:152 | Different byte strings have different encodings. |
| Base64Url.DigitsRoundTrip | src/main/java/net/unit8/bouncr/sign/JsonWebToken.java:151-152 | Decoding the digits the encoder writes, before padding, gives back the bytes. |
| Base64Url.EncodeHasNoDot | src/main/java/net/unit8/bouncr/sign/JsonWebToken.java:111 | An encoded segment never contains the token separator `.`. |
| Base64Url.DecodeRefusesDot | src/main/java/net/unit8/bouncr/sign/JsonWebToken.java:83 | A header segment holding a `.` is refused by the decoder. |
| Base64Url.LoneDigitRefused | src/main/java/net/unit8/bouncr/sign/JsonWebToken.java:83 | A single alphabet character, such as the segment "a", is refused. |
| Base64Url.EncodeEmpty | src/main/java/net/unit8/bouncr/sign/JsonWebToken.java:111 | The encoding is empty exactly when the signature bytes are empty. |
| JavaText.Split | src/main/java/net/unit8/bouncr/sign/JsonWebToken.java:80 | `split` with a limit gives at least one and at most `limit` parts. |
| JavaText.JoinSplit | src/main/java/net/unit8/bouncr/sign/JsonWebToken.java:80 | Joining the parts with the separator gives back the split text. |
| JavaText.SplitPartsFree | src/main/java/net/unit8/bouncr/sign/JsonWebToken.java:80 | No part but the last holds the separator. The last holds it only when the limit was reached. |
| JavaText.SplitCount | src/main/java/net/unit8/bouncr/sign/JsonWebToken.java:80-81 | The number of parts is the number of separators plus one, capped at the limit. So a token with fewer than two dots is not three parts. |
| JavaText.SplitJoin | src/main/java/net/unit8/bouncr/sign/JsonWebToken.java:113 | Joining separator-free parts (the last may hold separators) and splitting again gives back the parts. |
| JavaObjects.WrapInt32 | src/main/java/net/unit8/bouncr/sign/JwtHeader.java:38 | The `int` an overflowing computation gives is congruent to the exact value modulo 2^32. |
| JavaObjects.WrapInt32Unique | src/main/java/net/unit8/bouncr/sign/JwtHeader.java:38 | It is the only `int` in that residue class. |
| JavaObjects.HashFoldIsWrappedHorner | src/main/java/net/unit8/bouncr/sign/JwtHeader.java:38 | Java's hash loop, overflowing at every step, equals the exact polynomial reduced to 32 bits once. |
| JavaObjects.ObjectsEquals | src/main/java/net/unit8/bouncr/sign/JwtHeader.java:31-32 | `Objects.equals` on nullable fields holds exactly for equal values, `null` equal only to `null`. |
| JwtHeaders.SetAlg | src/main/java/net/unit8/bouncr/sign/JwtHeader.java:14-16 | `setAlg` changes `alg` and keeps `kid`. |
| JwtHeaders.SetKid | src/main/java/net/unit8/bouncr/sign/JwtHeader.java:22-24 | `setKid` changes `kid` and keeps `alg`. |
| JwtHeaders.SettersCommute | src/main/java/net/unit8/bouncr/sign/JwtHeader.java:14-24 | The two setters can be applied in either order. |
| JwtHeaders.BuiltHeader | src/main/java/net/unit8/bouncr/sign/JwtHeader.java:6-24 | A new header with both setters applied holds exactly the values set. With only `alg` set, `kid` stays `null`. |
| JwtHeaders.EqualsReflexive | src/main/java/net/unit8/bouncr/sign/JwtHeader.java:26-33 | `equals` is reflexive. |
| JwtHeaders.EqualsRefusesNullAndOtherClasses | src/main/java/net/unit8/bouncr/sign/JwtHeader.java:29 | `equals(null)` and `equals` of another class are false. |
| JwtHeaders.EqualsIffFields | src/main/java/net/unit8/bouncr/sign/JwtHeader.java:26-33 | Two headers are equal exactly when `alg` and `kid` agree, that is, exactly when they are the same value. |
| JwtHeaders.EqualsSymmetric | src/main/java/net/unit8/bouncr/sign/JwtHeader.java:26-33 | `equals` is symmetric. |
| JwtHeaders.EqualsTransitive | src/main/java/net/unit8/bouncr/sign/JwtHeader.java:26-33 | `equals` is transitive. |
| JwtHeaders.HashConsistent | src/main/java/net/unit8/bouncr/sign/JwtHeader.java:26-39 | Equal headers have equal hash codes. |
| JwtHeaders.HashCodeValue | src/main/java/net/unit8/bouncr/sign/JwtHeader.java:35-39 | The hash code is 31*31 + 31*hash(alg) + hash(kid), reduced to `int`. |
| JwtClaims.SetEmail | src/main/java/net/unit8/bouncr/sign/JwtClaim.java:24-26 | `getEmail` returns the value set, and every other getter is unchanged. |
| JwtClaims.SetPicture | src/main/java/net/unit8/bouncr/sign/JwtClaim.java:32-34 | `getPicture` returns the value set, and every other getter is unchanged. |
| JwtClaims.SetSub | src/main/java/net/unit8/bouncr/sign/JwtClaim.java:40-42 | `getSub` returns the value set, and every other getter is unchanged. |
| JwtClaims.SetIss | src/main/java/net/unit8/bouncr/sign/JwtClaim.java:48-50 | `getIss` returns the value set, and every other getter is unchanged. |
| JwtClaims.SetAud | src/main/java/net/unit8/bouncr/sign/JwtClaim.java:56-58 | `getAud` returns the value set, and every other getter is unchanged. |
| JwtClaims.SetName | src/main/java/net/unit8/bouncr/sign/JwtClaim.java:64-66 | `getName` returns the value set, and every other getter is unchanged. |
| JwtClaims.SetPreferredUsername | src/main/java/net/unit8/bouncr/sign/JwtClaim.java:72-74 | `getPreferredUsername` returns the value set, and every other getter is unchanged. |
| JwtClaims.SetExp | src/main/java/net/unit8/bouncr/sign/JwtClaim.java:80-82 | `getExp` returns the value set, and every other getter is unchanged. |
| JwtClaims.SetIat | src/main/java/net/unit8/bouncr/sign/JwtClaim.java:88-90 | `getIat` returns the value set, and every other getter is unchanged. |
| JwtClaims.SetNonce | src/main/java/net/unit8/bouncr/sign/JwtClaim.java:96-98 | `getNonce` returns the value set, and every other getter is unchanged. |
| JwtClaims.LastSetWins | src/main/java/net/unit8/bouncr/sign/JwtClaim.java:40-42 | Setting `sub` twice is the same as setting it once to the second value. |
| JwtClaims.EqualsReflexive | src/main/java/net/unit8/bouncr/sign/JwtClaim.java:100-115 | `equals` is reflexive. |
| JwtClaims.EqualsRefusesNullAndOtherClasses | src/main/java/net/unit8/bouncr/sign/JwtClaim.java:103 | `equals(null)` and `equals` of another class are false. |
| JwtClaims.EqualsIffGettersAgree | src/main/java/net/unit8/bouncr/sign/JwtClaim.java:100-115 | Two claim sets are equal exactly when all ten getters agree. |
| JwtClaims.GettersDetermine | src/main/java/net/unit8/bouncr/sign/JwtClaim.java:8-98 | Claim sets on which all ten getters agree are the same value. |
| JwtClaims.EqualsSymmetric | src/main/java/net/unit8/bouncr/sign/JwtClaim.java:100-115 | `equals` is symmetric. |
| JwtClaims.HashConsistent | src/main/java/net/unit8/bouncr/sign/JwtClaim.java:100-121 | Equal claim sets have equal hash codes. |
| Jws.EncodeJson | src/main/java/net/unit8/bouncr/sign/JsonWebToken.java:126-128 | The encoded text exists exactly when the mapper can write the value. It decodes back to the mapper's JSON bytes and holds no dot. |
| Jws.EncodeHeader | src/main/java/net/unit8/bouncr/sign/JsonWebToken.java:43-48 | The header segment exists exactly when the mapper can write the header, and it decodes to the header's JSON. |
| Jws.DecodePayload | src/main/java/net/unit8/bouncr/sign/JsonWebToken.java:50-55 | Undecodable base64 gives `null`. Otherwise the result is what the mapper reads from the decoded bytes. |
| Jws.SigningInput | src/main/java/net/unit8/bouncr/sign/JsonWebToken.java:67 | The signed text is the header segment, a dot and the payload segment, as encoded text. |
| Jws.VerifySignature | src/main/java/net/unit8/bouncr/sign/JsonWebToken.java:57-77 | An unknown algorithm is exactly the case that fails with NO_SUCH_JWT_ALGORITHM. `none` verifies. Verification succeeds exactly for `none`, or when signing the input again with the key reproduces the segment's text. Any other outcome of signing again answers false: a signature that differs, a key exception or a signature exception. A missing algorithm or provider raises `UnreachableException`, and these are the only failures besides the unknown algorithm. |
| Jws.Unsign | src/main/java/net/unit8/bouncr/sign/JsonWebToken.java:79-92 | Fewer than two dots gives `null`. For three parts: a header segment that is not base64url raises `IllegalArgumentException`, and one that does not parse raises `UncheckedIOException`. A signature that does not verify gives `null`, and a verifier exception propagates. Claims come back exactly when the signature verified: a verified token, from any signer, gives the decoded second segment. |
| Jws.SignatureSegment | src/main/java/net/unit8/bouncr/sign/JsonWebToken.java:106-122 | The signature segment holds no dot. For `none` it is always the empty segment, and signing cannot fail. Among successful results it is empty exactly for `none`, or for an empty signature. Otherwise it exists exactly when the provider signs, and it decodes to the provider's bytes. A missing algorithm raises `UnreachableException`, and any other provider failure raises `MisconfigurationException`. |
| Jws.SignRaw | src/main/java/net/unit8/bouncr/sign/JsonWebToken.java:101-123 | An unknown algorithm is exactly the case that fails with NO_SUCH_JWT_ALGORITHM. `none` always signs. For other algorithms, signing succeeds exactly when the provider does: a missing algorithm raises `UnreachableException`, and any other provider failure raises `MisconfigurationException`. A signed token is exactly the encoded header, a dot, the payload text as given (dots included), a dot and the signature segment over those two. Its first part is the encoded header, or "null" when the header cannot be written. |
| Jws.Sign | src/main/java/net/unit8/bouncr/sign/JsonWebToken.java:125-137 | An unknown algorithm is exactly the NO_SUCH_JWT_ALGORITHM failure, and the provider failures map as for the raw payload. A signed token splits into three parts whose second is the encoded claims. |
| Jws.SignedTokenSplits | src/main/java/net/unit8/bouncr/sign/JsonWebToken.java:113 | When the payload text has no dot, splitting a signed token gives back exactly the header, payload and signature segments it was joined from. |
| JwsProperties.SignedTokenParts | src/main/java/net/unit8/bouncr/sign/JsonWebToken.java:101-137 | A token from `sign` splits into the encoded header, the encoded claims and the signature segment over those two. |
| JwsProperties.SignatureEmptyIffNone | src/main/java/net/unit8/bouncr/sign/JsonWebToken.java:106-113 | The third segment is empty exactly for `none`, or when the provider returns no bytes. |
| JwsProperties.ResignReproduces | src/main/java/net/unit8/bouncr/sign/JsonWebToken.java:64-68 | With deterministic signing, signing again at verification reproduces the segment that was written. |
| JwsProperties.HeaderReadsBack | src/main/java/net/unit8/bouncr/sign/JsonWebToken.java:83 | The header segment decodes and parses back to the header, when the mapper reads back what it writes. |
| JwsProperties.PayloadReadsBack | src/main/java/net/unit8/bouncr/sign/JsonWebToken.java:50-55 | The payload segment decodes back to the claims under the same hypothesis. |
| JwsProperties.SignUnsignRoundTrip | src/main/java/net/unit8/bouncr/sign/JsonWebToken.java:79-92 | Unsigning a token signed with the same key returns the claims. This holds for every algorithm, given a mapper that reads back and, for algorithms other than `none`, deterministic signing. |
| JwsProperties.HypothesesSatisfiable | src/test/java/net/unit8/bouncr/sign/JsonWebTokenTest.java:74-81 | The hypotheses of the round-trip and wrong-key properties can be met together, by a mapper and an HS256 provider: a mapper that reads back what it writes, and signing that ignores the draw, never reports a missing provider and differs between keys. |
| JwsProperties.MismatchedResignRejected | src/main/java/net/unit8/bouncr/sign/JsonWebToken.java:64-68 | When signing again at verification gives different text, or fails, the token is rejected with `null`. |
| JwsProperties.ResignMismatch | src/main/java/net/unit8/bouncr/sign/JsonWebToken.java:64-75 | Checking a written segment answers false, without raising, when signing again gives other bytes or throws a signature or key exception. |
| JwsProperties.WrongKeyRejected | src/test/java/net/unit8/bouncr/sign/JsonWebTokenTest.java:83-91 | A token signed with one key and unsigned with another is rejected with `null`, for a scheme whose output is bound to its key. |
| JwsProperties.RandomizedHypothesesSatisfiable | src/main/java/net/unit8/bouncr/sign/JsonWebToken.java:64-68 | The hypotheses of the randomized-rejection property can be met: under PS256, a mapper that reads back and a provider whose output follows the draw sign one input differently for two draws. |
| JwsProperties.RandomizedResignRejected | src/main/java/net/unit8/bouncr/sign/JsonWebToken.java:64-68 | Even with the right key, a token is rejected when the verifier's random draw gives a different signature, as with PSS salts. |
| JwsProperties.NoneAcceptsAnySignature | src/main/java/net/unit8/bouncr/sign/JsonWebToken.java:60-62 | A token whose header says `none` is accepted whatever its third segment and whatever the key. |
| JwsProperties.UnknownAlgorithmRejected | src/main/java/net/unit8/bouncr/sign/JsonWebToken.java:104-105 | An unknown algorithm fails both unsign and sign with NO_SUCH_JWT_ALGORITHM, never silently succeeding. |
| JwsProperties.DottedPayloadCut | src/main/java/net/unit8/bouncr/sign/JsonWebToken.java:80 | If a raw payload holds a dot, the second part of the split token is cut at that dot, so it is not the payload that was signed. |
| JwsProperties.OneDotIsNull | src/main/java/net/unit8/bouncr/sign/JsonWebToken.java:80-81 | `unsign("a.b")` is `null`. |
| JwsProperties.UndecodableHeaderRaises | src/main/java/net/unit8/bouncr/sign/JsonWebToken.java:83 | A three-part token whose first part is not base64url throws `IllegalArgumentException`. |
| JwsProperties.ThreeDotsSplit | src/main/java/net/unit8/bouncr/sign/JsonWebToken.java:80 | `"a.b.c.d"` splits into "a", "b" and "c.d". |
| JwsProperties.ThreeDotsReachDecoder | src/main/java/net/unit8/bouncr/sign/JsonWebToken.java:80-83 | `unsign("a.b.c.d")` throws `IllegalArgumentException` rather than returning `null`. |
| JsonValues.DecimalInjective | src/main/java/enkan/security/bouncr/BouncrBackend.java:50 | Different integers render to different decimal texts. |
| UserPermissionPrincipals.AccessorsReturnConstructorArguments | src/main/java/enkan/security/bouncr/UserPermissionPrincipal.java:14-37 | The accessors return the constructor's arguments, and `hasPermission` holds exactly for members of the permission set. |
| BouncrBackends.Latin1Bytes | src/main/java/enkan/security/bouncr/BouncrBackend.java:59-61 | The key has one byte per character. A byte equals its character exactly when the character is in ISO-8859-1; any other character becomes `?`. |
| BouncrBackends.Latin1KeysDistinct | src/main/java/enkan/security/bouncr/BouncrBackend.java:59-61 | Distinct ISO-8859-1 texts give distinct keys. |
| BouncrBackends.NonLatin1KeysCollide | src/main/java/enkan/security/bouncr/BouncrBackend.java:60 | Two different characters outside ISO-8859-1 give the same one-byte key `?`. |
| BouncrBackends.Swallow | src/main/java/enkan/security/bouncr/BouncrBackend.java:26-34 | An exception from `unsign` and a `null` it returns both end as `null`. Verified claims pass through unchanged. |
| BouncrBackends.Parse | src/main/java/enkan/security/bouncr/BouncrBackend.java:25-35 | Without the `x-bouncr-credential` header there is no claim map. |
| BouncrBackends.Subject | src/main/java/enkan/security/bouncr/BouncrBackend.java:42 | The cast of `sub` fails exactly when `sub` is present, non-null and not a string. The account is present exactly when `sub` is a string, and is that string. |
| BouncrBackends.Authenticate | src/main/java/enkan/security/bouncr/BouncrBackend.java:39-53 | `null` data gives no principal. Otherwise it fails exactly when the `sub` cast fails, and otherwise builds a principal. |
| BouncrBackends.PermissionSetMembers | src/main/java/enkan/security/bouncr/BouncrBackend.java:47-51 | A text is in the permission set exactly when some non-null list element renders to it. |
| BouncrBackends.AuthenticatedAccount | src/main/java/enkan/security/bouncr/BouncrBackend.java:42 | The principal's name is the `sub` string, and `null` exactly when `sub` is absent or `null`. |
| BouncrBackends.AuthenticatedProfiles | src/main/java/enkan/security/bouncr/BouncrBackend.java:42-47 | The profile holds every claim except `sub` and `permissions`, each with its original value. |
| BouncrBackends.AuthenticatedPermissions | src/main/java/enkan/security/bouncr/BouncrBackend.java:43-51 | The principal has a permission exactly when `permissions` is a list with a non-null element rendering to it. |
| BouncrBackends.NumberPermissions | src/main/java/enkan/security/bouncr/BouncrBackend.java:47-51 | For a list of numbers, a decimal text is a permission exactly when its number is in the list, and every permission is the decimal text of some element. |
| BouncrBackends.MixedPermissionsCollapse | src/main/java/enkan/security/bouncr/BouncrBackend.java:48-51 | The list `[1, "1"]` grants the single permission "1": rendering with `Objects.toString` forgets the JSON type. |
| BouncrBackends.StringPermissions | src/main/java/enkan/security/bouncr/BouncrBackend.java:47-51 | For a list of strings, the permissions are exactly its elements. |
| BouncrBackends.NonListPermissionsGrantNothing | src/main/java/enkan/security/bouncr/BouncrBackend.java:43-46 | An absent or non-list `permissions` claim gives no permissions. |
| BouncrBackends.PrivateKeyTakesPrecedence | src/main/java/enkan/security/bouncr/BouncrBackend.java:28-29 | With a private key configured, the byte-array key has no effect. |
| BouncrBackends.SecretKeyWithoutPrivateKey | src/main/java/enkan/security/bouncr/BouncrBackend.java:30-31 | Without a private key, only the byte-array-key unsign decides. |
| BouncrBackends.ParseAcceptsSignedCredential | src/main/java/enkan/security/bouncr/BouncrBackend.java:25-35 | A credential signed with the backend's private key parses back to the signed claims. This needs deterministic signing, except for `none`. |
| BouncrBackends.ParseRejectsOtherKey | src/main/java/enkan/security/bouncr/BouncrBackend.java:25-35 | A credential signed with another key parses to `null`. |
| BouncrBackends.ParseSwallowsMalformedCredential | src/main/java/enkan/security/bouncr/BouncrBackend.java:26-34 | The credential "a.b.c.d", whose unsign throws, parses to `null`. |
| BouncrBackends.SignedSubjectAuthenticates | src/test/java/net/unit8/bouncr/sign/JsonWebTokenTest.java:65-81 | Claims `{"sub": "kawasima"}` signed with RS256 or HS256 and parsed with the same key authenticate as account `kawasima`, with no profile and no permissions. |
| BouncrBackends.KawasimaPrincipal | src/main/java/enkan/security/bouncr/BouncrBackend.java:39-53 | The claim map `{"sub": "kawasima"}` authenticates as that account, with an empty profile and no permissions. |
| AuthorizeMiddleware.AsUserPrincipal | src/main/java/enkan/security/bouncr/UserPermissionPrincipal.java:26-29 | The backend's principal, seen as a `UserPrincipal`, holds exactly the permissions in its set. |
| AuthorizeMiddleware.AsUser | src/main/java/enkan/security/bouncr/AuthorizeControllerMethodMiddleware.java:31-34 | A principal is found exactly when the request's principal is a user principal, and it is that principal. |
| AuthorizeMiddleware.Handle | src/main/java/enkan/security/bouncr/AuthorizeControllerMethodMiddleware.java:28-46 | The response is forwarded or 403 "Not allowed". Unmarked methods are forwarded. Without a user principal, exactly the unmarked methods are forwarded. |
| AuthorizeMiddleware.AnyPermittedMeansSomeRole | src/main/java/enkan/security/bouncr/AuthorizeControllerMethodMiddleware.java:38-39 | The role stream finds a match exactly when some listed role is one of the principal's permissions. |
| AuthorizeMiddleware.HandleAdmitsExactly | src/main/java/enkan/security/bouncr/AuthorizeControllerMethodMiddleware.java:36-45 | A request is forwarded exactly when the method is unmarked, or the principal is a `UserPrincipal` whose `hasPermission` holds for one of the listed roles. |
| AuthorizeMiddleware.PermissionPrincipalAdmits | src/main/java/enkan/security/bouncr/AuthorizeControllerMethodMiddleware.java:36-45 | For the principal the backend builds, a request is forwarded exactly when the method is unmarked or a listed role is in its permission set. |
| AuthorizeMiddleware.EmptyRolesForbidEveryone | src/main/java/enkan/security/bouncr/AuthorizeControllerMethodMiddleware.java:37-42 | An empty `@RolesAllowed` refuses every request with 403. |
| AuthorizeMiddleware.OtherPrincipalIsAnonymous | src/main/java/enkan/security/bouncr/AuthorizeControllerMethodMiddleware.java:31-34 | A principal that is not a user principal is treated like no principal. |
| AuthorizeMiddleware.MoreRolesAdmitMore | src/main/java/enkan/security/bouncr/AuthorizeControllerMethodMiddleware.java:38-39 | Listing more roles never refuses a request that was forwarded. |
| AuthorizeMiddleware.RoleOrderIrrelevant | src/main/java/enkan/security/bouncr/AuthorizeControllerMethodMiddleware.java:38-39 | Reordering the listed roles does not change the outcome. |

## Left out

- **Cryptography:** HMAC, RSA PKCS#1 v1.5 and RSA-PSS themselves are not modelled. The `Signature` provider is the `SignPrimitive` parameter, and the properties about it state their hypotheses (`Deterministic`, `Available`, `KeyBound`) explicitly.
- **JSON mapping:** Jackson's serialization is not modelled. The mapper is a `Codec` parameter, so the JSON text of a header or a claim set, the `preferred_username` property name, field ordering and unknown-property handling are all outside the model.
- **Character decoding of the payload:** `decodePayload` turns the bytes into a `String` with the platform charset before reading them. The model hands the bytes to the codec directly.
- **Component lifecycle:** `lifecycle()`, `setPrng` and the mapper configuration (`JsonWebToken.java` lines 139-167) are left out. The shared `SecureRandom` is the `Draw` parameter, one per signature computation.
- **`Class<T>` overload:** the `unsign` overload taking a `Class<T>` (lines 94-99) only wraps the class in a type reference and delegates. It is covered by `Jws.Unsign` with the codec of that class.
- **Null arguments:** a `null` message or a `null` header passed to the public methods throws `NullPointerException`. The model has no `null` for them.
  - A `null` claim map or `JwtClaim` does not throw: `some` is empty and the payload segment is the text "null". The model reaches the same token through a codec that cannot write the value.
  - A `null` key is never used for `none`. For other algorithms, `initSign` rejects it with `InvalidKeyException`, which the provider parameter can return.
- **Header read as JSON `null`:** this also ends in a `NullPointerException` in the code. The model conflates it with a header that does not parse (`UncheckedIO`).
- **Byte-array key unsign:** the `unsign` overload taking a `byte[]` key, which `BouncrBackend.parse` calls when no private key is set, is not part of this model. It is the `SecretUnsign` parameter.
- **Backend setters:** `setPrivateKey` and `setKey(byte[])` are plain field assignments, represented directly by the `Backend` value. Only `setKey(String)` (`Latin1Bytes`) computes anything.
- **HTTP request:** the request object and its header lookup become a `map<string, string>` of headers. Case-insensitive header names are not modelled.
- **Mutation in `authenticate`:** `authenticate` removes `sub` and `permissions` from the caller's map and then uses that same map as the profile, so the caller's map changes. The model returns a new profile map, equal to the mutated one, and does not model the aliasing.
- **Middleware lookups:** `getControllerMethod()` and the annotation lookup are the `rolesAllowed` parameter. `chain.next(request)` is the `Forwarded` response, since its result is passed on unchanged. A request that is not `Routable` (a `ClassCastException`) is not modelled.
- **Other principal methods:** the middleware calls only `hasPermission`, so `AuthorizeMiddleware.UserPrincipal` carries that one method as a function. `getName` and the other `Principal` methods are not modelled there.
- **JSON numbers:** floating-point and other non-integer JSON numbers and their `toString` are not modelled. `JsonValues.Value` has integers only.
- `JwtClaims.Equals`/`JwtHeaders.Equals`: the `this == o` shortcut is not modelled separately, since it returns the same answer as the field comparison.
- `JwtClaim.toString` (`JwtClaim.java` lines 123-137) is left out: nothing in the core uses it.
- Getters of `JwtHeader`, `JwtClaim` and `UserPermissionPrincipal` are the datatype fields, or `JwtClaims.Get`.
- `JavaObjects.CharCodes`: treats a string as one UTF-16 unit per character. Characters outside the Basic Multilingual Plane, which Java stores as two units, hash differently in Java.
- `JavaObjects.LongHashCode`: has no property of its own beyond its type. Only its use inside `hashCode` is covered, through `HashConsistent`.
- `Algorithms.Lookup`: the table's ten rows are characterised through `LookupMatchesNaming`. No separate lemma counts the rows.
- `BouncrBackends.Parse`: its contract states only the missing-header case. The verified and the swallowed cases are stated by `ParseAcceptsSignedCredential`, `ParseRejectsOtherKey` and `ParseSwallowsMalformedCredential`.

=== FILE: algorithms.dfy ===
/** The algorithm table of the token code: the JWS `alg` identifiers of
    section 3.1 of RFC 7518 it accepts (HMAC, RSASSA-PKCS1-v1_5 and
    RSASSA-PSS with SHA-256, SHA-384 and SHA-512, and the `none` of
    section 3.6), each with the name of the Java `Signature` algorithm that
    computes it. */
module Algorithms {
  import opened Wrappers

  /** The `ALGORITHMS` option map. */
  const Table: map<string, string> := map[
    "HS256" := "HmacSHA256",
    "HS384" := "HmacSHA384",
    "HS512" := "HmacSHA512",
    "RS256" := "SHA256withRSA",
    "RS384" := "SHA384withRSA",
    "RS512" := "SHA512withRSA",
    "PS256" := "SHA256withRSAandMGF1",
    "PS384" := "SHA384withRSAandMGF1",
    "PS512" := "SHA512withRSAandMGF1",
    "none" := "none"
  ]

  /** The provider name that stands for "no signature at all". */
  const NoSignature: string := "none"

  /** `ALGORITHMS.getString(alg)`: the provider name, or `None` (Java's
      `null`) for a `null` or unlisted identifier. Identifiers are compared
      exactly, letter case included. */
  function Lookup(alg: Option<string>): (r: Option<string>)
    ensures r.Some? ==> alg.Some?
    ensures r == Some(NoSignature) <==> alg == Some("none")
  {
    if alg.Some? && alg.value in Table then Some(Table[alg.value]) else None
  }

  // An independent description of the table, from the naming scheme of
  // section 3.1 of RFC 7518.

  /** The two-letter families: HMAC, RSASSA-PKCS1-v1_5 and RSASSA-PSS. */
  predicate IsFamily(f: string) {
    f == "HS" || f == "RS" || f == "PS"
  }

  /** The three SHA-2 digest sizes. */
  predicate IsDigestSize(b: string) {
    b == "256" || b == "384" || b == "512"
  }

  /** `none`, or a family followed by a digest size. */
  predicate IsRegistered(a: string) {
    a == "none" || (|a| == 5 && IsFamily(a[..2]) && IsDigestSize(a[2..]))
  }

  /** The Java name of a registered algorithm, assembled from its parts. */
  function JcaName(a: string): string
    requires IsRegistered(a)
  {
    if a == "none" then NoSignature
    else
      var family, bits := a[..2], a[2..];
      if family == "HS" then "HmacSHA" + bits
      else if family == "RS" then "SHA" + bits + "withRSA"
      else "SHA" + bits + "withRSAandMGF1"
  }

  /** Exactly the registered identifiers resolve, and each resolves to the
      name its family and digest size call for. */
  lemma LookupMatchesNaming(a: string)
    ensures Lookup(Some(a)).Some? <==> IsRegistered(a)
    ensures IsRegistered(a) ==> Lookup(Some(a)) == Some(JcaName(a))
  {
    if IsRegistered(a) && a != "none" {
      assert a == a[..2] + a[2..];
      Listed(a[..2], a[2..]);
    }
    if a in Table {
      ListedIsRegistered(a);
    }
  }

  /** A family followed by a digest size is listed, under the name the
      naming scheme gives it. */
  lemma Listed(family: string, bits: string)
    requires IsFamily(family) && IsDigestSize(bits)
    ensures var a := family + bits;
      IsRegistered(a) && a in Table && Table[a] == JcaName(a)
  {
    var a := family + bits;
    assert a[..2] == family && a[2..] == bits;
    if family == "HS" {
      ListedHmac(bits);
    } else if family == "RS" {
      ListedRsa(bits);
    } else {
      ListedPss(bits);
    }
  }

  /** The HMAC rows. */
  lemma ListedHmac(bits: string)
    requires IsDigestSize(bits)
    ensures "HS" + bits in Table && Table["HS" + bits] == "HmacSHA" + bits
  {
    if bits == "256" { assert "HS" + bits == "HS256" && "HmacSHA" + bits == "HmacSHA256"; }
    else if bits == "384" { assert "HS" + bits == "HS384" && "HmacSHA" + bits == "HmacSHA384"; }
    else { assert "HS" + bits == "HS512" && "HmacSHA" + bits == "HmacSHA512"; }
  }

  /** The RSASSA-PKCS1-v1_5 rows. */
  lemma ListedRsa(bits: string)
    requires IsDigestSize(bits)
    ensures "RS" + bits in Table && Table["RS" + bits] == "SHA" + bits + "withRSA"
  {
    if bits == "256" { assert "RS" + bits == "RS256" && "SHA" + bits + "withRSA" == "SHA256withRSA"; }
    else if bits == "384" { assert "RS" + bits == "RS384" && "SHA" + bits + "withRSA" == "SHA384withRSA"; }
    else { assert "RS" + bits == "RS512" && "SHA" + bits + "withRSA" == "SHA512withRSA"; }
  }

  /** The RSASSA-PSS rows. */
  lemma ListedPss(bits: string)
    requires IsDigestSize(bits)
    ensures "PS" + bits in Table && Table["PS" + bits] == "SHA" + bits + "withRSAandMGF1"
  {
    if bits == "256" { assert "PS" + bits == "PS256" && "SHA" + bits + "withRSAandMGF1" == "SHA256withRSAandMGF1"; }
    else { ListedPssLonger(bits); }
  }

  /** The PS384 and PS512 rows. */
  lemma ListedPssLonger(bits: string)
    requires bits == "384" || bits == "512"
    ensures "PS" + bits in Table && Table["PS" + bits] == "SHA" + bits + "withRSAandMGF1"
  {
    if bits == "384" { assert "PS" + bits == "PS384" && "SHA" + bits + "withRSAandMGF1" == "SHA384withRSAandMGF1"; }
    else { assert "PS" + bits == "PS512" && "SHA" + bits + "withRSAandMGF1" == "SHA512withRSAandMGF1"; }
  }

  /** Every identifier in the table follows the naming scheme. */
  lemma ListedIsRegistered(a: string)
    requires a in Table
    ensures IsRegistered(a) && Table[a] == JcaName(a)
  {
    if a != "none" {
      var family, bits := ListedParts(a);
      Listed(family, bits);
    }
  }

  /** The family and digest size an identifier of the table is made of. */
  lemma ListedParts(a: string) returns (family: string, bits: string)
    requires a in Table && a != "none"
    ensures IsFamily(family) && IsDigestSize(bits) && a == family + bits
  {
    if a == "HS256" { family, bits := "HS", "256"; }
    else if a == "HS384" { family, bits := "HS", "384"; }
    else if a == "HS512" { family, bits := "HS", "512"; }
    else if a == "RS256" { family, bits := "RS", "256"; }
    else if a == "RS384" { family, bits := "RS", "384"; }
    else if a == "RS512" { family, bits := "RS", "512"; }
    else if a == "PS256" { family, bits := "PS", "256"; }
    else if a == "PS384" { family, bits := "PS", "384"; }
    else { family, bits := "PS", "512"; }
  }

  /** Identifiers are case-sensitive: other spellings of listed ones do not
      resolve. */
  lemma LookupIsCaseSensitive()
    ensures Lookup(Some("hs256")) == None
    ensures Lookup(Some("NONE")) == None
    ensures Lookup(Some("Rs256")) == None
  {
  }

  /** A `null` identifier does not resolve. */
  lemma LookupNull()
    ensures Lookup(None) == None
  {
  }
}

=== FILE: authorize_middleware.dfy ===
/** `AuthorizeControllerMethodMiddleware.handle`: a controller method marked
    `@RolesAllowed` is reached only by a user principal holding at least one
    of the listed roles as a permission; anyone else gets 403. Unmarked
    methods are always reached. */
module AuthorizeMiddleware {
  import opened Wrappers
  import opened UserPermissionPrincipals

  /** An object of any class implementing `UserPrincipal`. The middleware
      only asks it `hasPermission`, whose answer is up to that class. */
  datatype UserPrincipal = UserPrincipal(hasPermission: string -> bool)

  /** What `request.getPrincipal()` holds: nothing, a `UserPrincipal`, or a
      principal of some other kind. */
  datatype RequestPrincipal = NoPrincipal | User(principal: UserPrincipal) | OtherPrincipal

  /** The `UserPermissionPrincipal` the backend builds, seen as a
      `UserPrincipal`: it holds a permission exactly when its set does. */
  function AsUserPrincipal(p: Principal): (u: UserPrincipal)
    ensures forall x :: u.hasPermission(x) <==> x in p.permissions
  {
    UserPrincipal(x => p.HasPermission(x))
  }

  /** Either the request goes on to the next middleware in the chain, whose
      response is returned unchanged, or a response is built here. */
  datatype Response = Forwarded | Respond(status: int, body: string)

  /** The refusal: status 403 with body "Not allowed". */
  const Forbidden: Response := Respond(403, "Not allowed")

  /** The `UserPrincipal.class::isInstance` filter and cast. */
  function AsUser(p: RequestPrincipal): (r: Option<UserPrincipal>)
    ensures r.Some? <==> p.User?
    ensures r.Some? ==> r.value == p.principal
  {
    match p
    case User(principal) => Some(principal)
    case _ => None
  }

  /** `Stream.of(roles).anyMatch(role -> principal has permission role)`,
      evaluated left to right. */
  function AnyPermitted(p: UserPrincipal, roles: seq<string>): bool {
    if |roles| == 0 then false else p.hasPermission(roles[0]) || AnyPermitted(p, roles[1..])
  }

  /** `handle(request, chain)`, with `rolesAllowed` the `@RolesAllowed`
      value of the routed controller method, `None` when it has none. */
  function Handle(principal: RequestPrincipal, rolesAllowed: Option<seq<string>>): (r: Response)
    ensures r == Forwarded || r == Forbidden
    ensures rolesAllowed.None? ==> r == Forwarded
    ensures !principal.User? ==> (r == Forwarded <==> rolesAllowed.None?)
  {
    match rolesAllowed
    case None => Forwarded
    case Some(roles) =>
      var user := AsUser(principal);
      if user.None? || !AnyPermitted(user.value, roles) then Forbidden else Forwarded
  }

  /** The stream finds a match exactly when some listed role is a permission
      of the principal. */
  lemma {:induction false} AnyPermittedMeansSomeRole(p: UserPrincipal, roles: seq<string>)
    ensures AnyPermitted(p, roles) <==> exists i :: 0 <= i < |roles| && p.hasPermission(roles[i])
  {
    if |roles| > 0 {
      var tail := roles[1..];
      AnyPermittedMeansSomeRole(p, tail);
      if exists i :: 0 <= i < |roles| && p.hasPermission(roles[i]) {
        var i :| 0 <= i < |roles| && p.hasPermission(roles[i]);
        if i > 0 {
          assert tail[i - 1] == roles[i];
        }
      }
      if exists j :: 0 <= j < |tail| && p.hasPermission(tail[j]) {
        var j :| 0 <= j < |tail| && p.hasPermission(tail[j]);
        assert roles[j + 1] == tail[j];
      }
    }
  }

  /** A request goes through exactly when the method is unmarked, or the
      principal is a user principal with one of the listed roles. */
  lemma HandleAdmitsExactly(principal: RequestPrincipal, rolesAllowed: Option<seq<string>>)
    ensures Handle(principal, rolesAllowed) == Forwarded <==>
      || rolesAllowed.None?
      || (principal.User? &&
          exists i :: 0 <= i < |rolesAllowed.value| && principal.principal.hasPermission(rolesAllowed.value[i]))
  {
    if rolesAllowed.Some? && principal.User? {
      AnyPermittedMeansSomeRole(principal.principal, rolesAllowed.value);
    }
  }

  /** For the principal the backend builds, a request goes through exactly
      when the method is unmarked or one of the listed roles is in the
      principal's permission set. */
  lemma PermissionPrincipalAdmits(p: Principal, rolesAllowed: Option<seq<string>>)
    ensures Handle(User(AsUserPrincipal(p)), rolesAllowed) == Forwarded <==>
      rolesAllowed.None? || exists i :: 0 <= i < |rolesAllowed.value| && rolesAllowed.value[i] in p.permissions
  {
    HandleAdmitsExactly(User(AsUserPrincipal(p)), rolesAllowed);
  }

  /** `@RolesAllowed({})` lets nobody through. */
  lemma EmptyRolesForbidEveryone(principal: RequestPrincipal)
    ensures Handle(principal, Some([])) == Forbidden
  {
  }

  /** A principal of another kind is treated as no principal at all. */
  lemma OtherPrincipalIsAnonymous(rolesAllowed: Option<seq<string>>)
    ensures Handle(OtherPrincipal, rolesAllowed) == Handle(NoPrincipal, rolesAllowed)
  {
  }

  /** Listing more roles never shuts out a principal that was let through. */
  lemma MoreRolesAdmitMore(principal: RequestPrincipal, roles: seq<string>, more: seq<string>)
    requires Handle(principal, Some(roles)) == Forwarded
    ensures Handle(principal, Some(roles + more)) == Forwarded
  {
    HandleAdmitsExactly(principal, Some(roles));
    HandleAdmitsExactly(principal, Some(roles + more));
    var i :| 0 <= i < |roles| && principal.principal.hasPermission(roles[i]);
    assert (roles + more)[i] == roles[i];
  }

  /** The order of the listed roles does not matter. */
  lemma RoleOrderIrrelevant(principal: RequestPrincipal, roles: seq<string>, reordered: seq<string>)
    requires multiset(roles) == multiset(reordered)
    ensures Handle(principal, Some(roles)) == Handle(principal, Some(reordered))
  {
    HandleAdmitsExactly(principal, Some(roles));
    HandleAdmitsExactly(principal, Some(reordered));
    if principal.User? {
      var p := principal.principal;
      if exists i :: 0 <= i < |roles| && p.hasPermission(roles[i]) {
        var i :| 0 <= i < |roles| && p.hasPermission(roles[i]);
        assert roles[i] in multiset(reordered);
        var j :| 0 <= j < |reordered| && reordered[j] == roles[i];
      }
      if exists j :: 0 <= j < |reordered| && p.hasPermission(reordered[j]) {
        var j :| 0 <= j < |reordered| && p.hasPermission(reordered[j]);
        assert reordered[j] in multiset(roles);
        var i :| 0 <= i < |roles| && roles[i] == reordered[j];
      }
    }
  }
}

=== FILE: base64_url.dfy ===
/** The base64 codec the token segments are written with:
    `java.util.Base64.getUrlEncoder()` and `getUrlDecoder()`, that is, the
    "URL and filename safe" alphabet of section 5 of RFC 4648. The encoder
    pads with `=` (section 3.2 of RFC 4648); the decoder is the JDK's strict
    one, which accepts the padded and the unpadded form alike. */
module Base64Url {
  import opened Wrappers

  /** One byte, as the unsigned value of a Java `byte`. */
  type Byte = b: int | 0 <= b < 256

  /** One base64 digit: six bits. */
  type Sextet = v: int | 0 <= v < 64

  /** The 64 characters of the URL-safe alphabet: `A-Z a-z 0-9 - _`. */
  predicate IsAlphabetChar(c: char) {
    ('A' <= c <= 'Z') || ('a' <= c <= 'z') || ('0' <= c <= '9') || c == '-' || c == '_'
  }

  /** Every character of `s` is an alphabet character. */
  predicate IsDigits(s: string) {
    forall k :: 0 <= k < |s| ==> IsAlphabetChar(s[k])
  }

  /** The padding character. */
  const Pad: char := '='

  /** The alphabet character for digit `v`. */
  function CharOf(v: Sextet): (c: char)
    ensures IsAlphabetChar(c)
  {
    if v < 26 then ('A' as int + v) as char
    else if v < 52 then ('a' as int + (v - 26)) as char
    else if v < 62 then ('0' as int + (v - 52)) as char
    else if v == 62 then '-'
    else '_'
  }

  /** The digit an alphabet character stands for; `CharOf` undone. */
  function ValueOf(c: char): (v: Sextet)
    requires IsAlphabetChar(c)
    ensures CharOf(v) == c
  {
    if 'A' <= c <= 'Z' then c as int - 'A' as int
    else if 'a' <= c <= 'z' then c as int - 'a' as int + 26
    else if '0' <= c <= '9' then c as int - '0' as int + 52
    else if c == '-' then 62
    else 63
  }

  /** Distinct digits have distinct characters. */
  lemma ValueOfCharOf(v: Sextet)
    ensures ValueOf(CharOf(v)) == v
  {
  }

  // ---------------------------------------------------------------- encoder

  /** Three bytes, read as one 24-bit number, written as four 6-bit digits. */
  function EncodeGroup(b0: Byte, b1: Byte, b2: Byte): (g: string)
    ensures |g| == 4 && IsDigits(g)
  {
    [CharOf(b0 / 4), CharOf(b0 % 4 * 16 + b1 / 16), CharOf(b1 % 16 * 4 + b2 / 64), CharOf(b2 % 64)]
  }

  /** Whole groups of four add nothing modulo four. */
  lemma {:induction false} FourGroups(groups: nat, extra: nat)
    requires extra < 4
    ensures (4 * groups + extra) % 4 == extra
    decreases groups
  {
    if groups > 0 {
      FourGroups(groups - 1, extra);
      assert 4 * groups + extra == (4 * (groups - 1) + extra) + 4;
    }
  }

  /** The digits of the last, short group are what is left modulo four. */
  lemma DigitCountMod(n: nat)
    ensures DigitCount(n) % 4 == (if n % 3 == 0 then 0 else n % 3 + 1)
  {
    FourGroups(n / 3, if n % 3 == 0 then 0 else n % 3 + 1);
  }

  /** Number of digits written for `n` bytes before padding. */
  function DigitCount(n: nat): (c: nat)
    ensures c % 4 != 1
  {
    var groups, rest := n / 3, n % 3;
    4 * groups + (if rest == 0 then 0 else rest + 1)
  }

  /** The digits of the encoding without padding: whole groups of three bytes,
      then a last group of one byte (two digits) or two bytes (three digits)
      whose missing low bits are zero. */
  function EncodeDigits(b: seq<Byte>): (s: string)
    ensures |s| == DigitCount(|b|)
    ensures IsDigits(s)
    decreases |b|
  {
    if |b| == 0 then ""
    else if |b| == 1 then EncodeLastOne(b[0])
    else if |b| == 2 then EncodeLastTwo(b[0], b[1])
    else EncodeGroup(b[0], b[1], b[2]) + EncodeDigits(b[3..])
  }

  /** A last group of one byte: two digits, the second with four zero bits. */
  function EncodeLastOne(b0: Byte): (g: string)
    ensures |g| == 2 && IsDigits(g)
  {
    [CharOf(b0 / 4), CharOf(b0 % 4 * 16)]
  }

  /** A last group of two bytes: three digits, the third with two zero bits. */
  function EncodeLastTwo(b0: Byte, b1: Byte): (g: string)
    ensures |g| == 3 && IsDigits(g)
  {
    [CharOf(b0 / 4), CharOf(b0 % 4 * 16 + b1 / 16), CharOf(b1 % 16 * 4)]
  }

  /** `=` characters that fill the last group up to four characters. */
  function Padding(n: nat): (p: string)
    ensures forall k :: 0 <= k < |p| ==> p[k] == Pad
  {
    if n % 3 == 1 then [Pad, Pad] else if n % 3 == 2 then [Pad] else ""
  }

  /** `Base64.getUrlEncoder().encodeToString(b)`. */
  function Encode(b: seq<Byte>): (s: string)
    ensures |s| % 4 == 0
    ensures forall k :: 0 <= k < |s| ==> IsAlphabetChar(s[k]) || s[k] == Pad
  {
    EncodedLength(|b|);
    EncodedChars(EncodeDigits(b), Padding(|b|));
    EncodeDigits(b) + Padding(|b|)
  }

  /** Digits and padding make whole groups of four. */
  lemma EncodedLength(n: nat)
    ensures (DigitCount(n) + |Padding(n)|) % 4 == 0
  {
    var c := DigitCount(n);
    DigitCountMod(n);
    if n % 3 == 0 {
      PadToFour(c, 0);
    } else if n % 3 == 1 {
      PadToFour(c, 2);
    } else {
      PadToFour(c, 1);
    }
  }

  /** A short last group and its padding make four. */
  lemma PadToFour(c: nat, pad: nat)
    requires (c % 4 == 0 && pad == 0) || (c % 4 == 2 && pad == 2) || (c % 4 == 3 && pad == 1)
    ensures (c + pad) % 4 == 0
  {
  }

  /** Digits followed by padding hold only digits and `=`. */
  lemma EncodedChars(d: string, p: string)
    requires IsDigits(d)
    requires forall k :: 0 <= k < |p| ==> p[k] == Pad
    ensures forall k :: 0 <= k < |d + p| ==> IsAlphabetChar((d + p)[k]) || (d + p)[k] == Pad
  {
  }

  // ---------------------------------------------------------------- decoder

  /** Length of the leading run of alphabet characters. */
  function AlphabetRun(s: string): (n: nat)
    ensures n <= |s|
    ensures IsDigits(s[..n])
    ensures n < |s| ==> !IsAlphabetChar(s[n])
  {
    if |s| == 0 || !IsAlphabetChar(s[0]) then 0 else 1 + AlphabetRun(s[1..])
  }

  /** Four digits, read as one 24-bit number, written as three bytes. */
  function DecodeGroup(c0: char, c1: char, c2: char, c3: char): seq<Byte>
    requires IsAlphabetChar(c0) && IsAlphabetChar(c1) && IsAlphabetChar(c2) && IsAlphabetChar(c3)
  {
    var v0, v1, v2, v3 := ValueOf(c0), ValueOf(c1), ValueOf(c2), ValueOf(c3);
    [v0 * 4 + v1 / 16, v1 % 16 * 16 + v2 / 4, v2 % 4 * 64 + v3]
  }

  /** The bytes of a run of digits whose length is not 1 modulo 4; a short last
      group of two or three digits gives one or two bytes, and the bits below
      the last whole byte are dropped without being checked, as the JDK does. */
  function DecodeDigits(d: string): (b: seq<Byte>)
    requires IsDigits(d)
    requires |d| % 4 != 1
    decreases |d|
  {
    if |d| == 0 then []
    else if |d| == 2 then [ValueOf(d[0]) * 4 + ValueOf(d[1]) / 16]
    else if |d| == 3 then
      [ValueOf(d[0]) * 4 + ValueOf(d[1]) / 16, ValueOf(d[1]) % 16 * 16 + ValueOf(d[2]) / 4]
    else DecodeGroup(d[0], d[1], d[2], d[3]) + DecodeDigits(d[4..])
  }

  /** `Base64.getUrlDecoder().decode(s)`, with `None` for the
      IllegalArgumentException it throws. The digits run up to the first
      character outside the alphabet; what follows must be nothing, or exactly
      `==` after a two-digit last group, or exactly `=` after a three-digit
      one. A lone last digit is refused with or without padding. */
  function Decode(s: string): (r: Option<seq<Byte>>)
    ensures r.Some? ==> forall k :: 0 <= k < |s| ==> IsAlphabetChar(s[k]) || s[k] == Pad
  {
    var n := AlphabetRun(s);
    var tail := s[n..];
    if n % 4 == 1 then None
    else if tail == "" || (n % 4 == 2 && tail == [Pad, Pad]) || (n % 4 == 3 && tail == [Pad]) then
      Some(DecodeDigits(s[..n]))
    else None
  }

  // ---------------------------------------------------------------- properties

  /** No encoder output contains `.`, the compact token's separator. */
  lemma EncodeHasNoDot(b: seq<Byte>)
    ensures '.' !in Encode(b)
  {
    var s := Encode(b);
    assert forall k :: 0 <= k < |s| ==> s[k] != '.';
  }

  /** The decoder refuses any text holding a `.`. */
  lemma DecodeRefusesDot(s: string)
    requires '.' in s
    ensures Decode(s) == None
  {
    var k :| 0 <= k < |s| && s[k] == '.';
    assert !IsAlphabetChar(s[k]) && s[k] != Pad;
  }

  /** A single digit is not a whole byte: the decoder refuses it. */
  lemma LoneDigitRefused(c: char)
    requires IsAlphabetChar(c)
    ensures Decode([c]) == None
  {
    assert AlphabetRun([c]) == 1 + AlphabetRun([]);
  }

  /** Only the empty byte string encodes to the empty text. */
  lemma EncodeEmpty(b: seq<Byte>)
    ensures Encode(b) == "" <==> b == []
  {
    if b != [] {
      assert |EncodeDigits(b)| >= 2;
    }
  }

  /** The six high bits of a byte and the two bits below them give it back. */
  lemma HighBitsRoundTrip(b: Byte, lowNibble: int)
    requires 0 <= lowNibble < 16
    ensures (b / 4) * 4 + (b % 4 * 16 + lowNibble) / 16 == b
  {
  }

  /** The middle byte: its high four bits share a digit with the byte before,
      its low four bits with the byte after. */
  lemma MiddleBitsRoundTrip(hi: int, b: Byte, lowPair: int)
    requires 0 <= hi < 4 && 0 <= lowPair < 4
    ensures (hi * 16 + b / 16) % 16 * 16 + (b % 16 * 4 + lowPair) / 4 == b
  {
  }

  /** The last byte: two bits in one digit and six in the next. */
  lemma LowBitsRoundTrip(hi: int, b: Byte)
    requires 0 <= hi < 16
    ensures (hi * 4 + b / 64) % 4 * 64 + b % 64 == b
  {
  }

  /** One group survives an encode-decode trip. */
  lemma GroupRoundTrip(b0: Byte, b1: Byte, b2: Byte)
    ensures var g := EncodeGroup(b0, b1, b2);
      DecodeGroup(g[0], g[1], g[2], g[3]) == [b0, b1, b2]
  {
    var v0, v1, v2, v3 := b0 / 4, b0 % 4 * 16 + b1 / 16, b1 % 16 * 4 + b2 / 64, b2 % 64;
    ValueOfCharOf(v0);
    ValueOfCharOf(v1);
    ValueOfCharOf(v2);
    ValueOfCharOf(v3);
    HighBitsRoundTrip(b0, b1 / 16);
    MiddleBitsRoundTrip(b0 % 4, b1, b2 / 64);
    LowBitsRoundTrip(b1 % 16, b2);
  }

  /** A short last group of one or two bytes survives the trip too. */
  lemma TailRoundTrip(b: seq<Byte>)
    requires 1 <= |b| <= 2
    ensures DecodeDigits(EncodeDigits(b)) == b
  {
    if |b| == 1 {
      OneByteTail(b);
    } else {
      TwoBytesTail(b);
    }
  }

  /** The one-byte case of `TailRoundTrip`. */
  lemma OneByteTail(b: seq<Byte>)
    requires |b| == 1
    ensures DecodeDigits(EncodeDigits(b)) == b
  {
    assert EncodeDigits(b) == EncodeLastOne(b[0]);
    OneByteRoundTrip(b[0]);
    assert b == [b[0]];
  }

  /** The two-byte case of `TailRoundTrip`. */
  lemma TwoBytesTail(b: seq<Byte>)
    requires |b| == 2
    ensures DecodeDigits(EncodeDigits(b)) == b
  {
    assert EncodeDigits(b) == EncodeLastTwo(b[0], b[1]);
    TwoBytesRoundTrip(b[0], b[1]);
    assert b == [b[0], b[1]];
  }

  /** A last group of one byte: two digits. */
  lemma OneByteRoundTrip(b0: Byte)
    ensures DecodeDigits(EncodeLastOne(b0)) == [b0]
  {
    ValueOfCharOf(b0 / 4);
    ValueOfCharOf(b0 % 4 * 16);
    HighBitsRoundTrip(b0, 0);
  }

  /** A last group of two bytes: three digits. */
  lemma TwoBytesRoundTrip(b0: Byte, b1: Byte)
    ensures DecodeDigits(EncodeLastTwo(b0, b1)) == [b0, b1]
  {
    ValueOfCharOf(b0 / 4);
    ValueOfCharOf(b0 % 4 * 16 + b1 / 16);
    ValueOfCharOf(b1 % 16 * 4);
    HighBitsRoundTrip(b0, b1 / 16);
    MiddleBitsRoundTrip(b0 % 4, b1, 0);
  }

  /** Decoding the digits of a leading full group and of the rest. */
  lemma DecodeDigitsCons(g: string, e: string)
    requires |g| == 4
    requires IsDigits(g) && IsDigits(e)
    requires |e| % 4 != 1
    ensures DecodeDigits(g + e) == DecodeGroup(g[0], g[1], g[2], g[3]) + DecodeDigits(e)
  {
    var d := g + e;
    assert d[..4] == g;
    assert d[4..] == e;
  }

  /** A leading full group: if the rest survives the trip, so does the whole. */
  lemma GroupStep(b: seq<Byte>)
    requires 3 <= |b|
    requires DecodeDigits(EncodeDigits(b[3..])) == b[3..]
    ensures DecodeDigits(EncodeDigits(b)) == b
  {
    var g := EncodeGroup(b[0], b[1], b[2]);
    var e := EncodeDigits(b[3..]);
    assert EncodeDigits(b) == g + e;
    DecodeDigitsCons(g, e);
    GroupRoundTrip(b[0], b[1], b[2]);
    FirstThree(b);
  }

  /** A sequence of three or more is its first three elements and the rest. */
  lemma FirstThree(b: seq<Byte>)
    requires 3 <= |b|
    ensures b == [b[0], b[1], b[2]] + b[3..]
  {
  }

  /** The digits decode back to the bytes they were written from. */
  lemma {:induction false} DigitsRoundTrip(b: seq<Byte>)
    ensures DecodeDigits(EncodeDigits(b)) == b
    decreases |b|
  {
    if |b| == 0 {
    } else if |b| <= 2 {
      TailRoundTrip(b);
    } else {
      DigitsRoundTrip(b[3..]);
      GroupStep(b);
    }
  }

  /** The run of digits ends where a non-alphabet character begins. */
  lemma {:induction false} AlphabetRunOf(d: string, p: string)
    requires IsDigits(d)
    requires p == "" || !IsAlphabetChar(p[0])
    ensures AlphabetRun(d + p) == |d|
    decreases |d|
  {
    var s := d + p;
    if |d| == 0 {
      assert s == p;
    } else {
      AlphabetRunOf(d[1..], p);
      assert s[0] == d[0];
      assert s[1..] == d[1..] + p;
    }
  }

  /** The encoder's padding is what the decoder accepts after its digits. */
  lemma PaddingFits(n: nat)
    ensures var c, p := DigitCount(n), Padding(n);
      p == "" || (c % 4 == 2 && p == [Pad, Pad]) || (c % 4 == 3 && p == [Pad])
  {
    DigitCountMod(n);
  }

  /** Decoding undoes encoding, for every byte string. */
  lemma DecodeEncode(b: seq<Byte>)
    ensures Decode(Encode(b)) == Some(b)
  {
    var d := EncodeDigits(b);
    var p := Padding(|b|);
    var s := d + p;
    assert s == Encode(b);
    AlphabetRunOf(d, p);
    assert s[..|d|] == d;
    assert s[|d|..] == p;
    PaddingFits(|b|);
    DigitsRoundTrip(b);
  }

  /** Different byte strings have different encodings. */
  lemma EncodeInjective(a: seq<Byte>, b: seq<Byte>)
    requires Encode(a) == Encode(b)
    ensures a == b
  {
    DecodeEncode(a);
    DecodeEncode(b);
  }
}

=== FILE: bouncr_backend.dfy ===
/** `BouncrBackend`: reads the signed credential header of a request into a
    claim map (`parse`) and turns a claim map into a
    `UserPermissionPrincipal` (`authenticate`). */
module BouncrBackends {
  import opened Wrappers
  import opened JavaText
  import opened Base64Url
  import opened Algorithms
  import opened JwtHeaders
  import opened JsonValues
  import opened UserPermissionPrincipals
  import opened Jws
  import opened JwsProperties

  /** A JSON object read as `Map<String, Object>`. */
  type Claims = map<string, Value>

  /** The request header that carries the token. */
  const CredentialHeader: string := "x-bouncr-credential"

  /** The two injected keys, each possibly `null`. */
  datatype Backend = Backend(privateKey: Option<PrivateKey>, key: Option<seq<Byte>>)

  /** `jwt.unsign(credential, key, mapType)` with a byte-array key. That
      overload of the token component is not part of this model, so it is
      any function at all. */
  type SecretUnsign = (string, Option<seq<Byte>>) -> Result<Option<Claims>, JwtError>

  /** `setKey(String)`: the ISO-8859-1 bytes of the text, where a character
      outside that charset becomes `'?'`. */
  function Latin1Bytes(key: string): (r: seq<Byte>)
    ensures |r| == |key|
    ensures forall k :: 0 <= k < |key| ==> (r[k] as int == key[k] as int <==> key[k] as int < 256)
    ensures forall k :: 0 <= k < |key| && key[k] as int >= 256 ==> r[k] == '?' as int as Byte
  {
    if |key| == 0 then []
    else
      var c := key[0];
      [if c as int < 256 then c as int as Byte else '?' as int as Byte] + Latin1Bytes(key[1..])
  }

  /** Every character is in ISO-8859-1. */
  predicate IsLatin1(s: string) {
    forall k :: 0 <= k < |s| ==> s[k] as int < 256
  }

  /** Two ISO-8859-1 texts give the same key bytes only when they are the
      same text; outside that charset, distinct texts can collide on `'?'`. */
  lemma Latin1KeysDistinct(a: string, b: string)
    requires IsLatin1(a) && IsLatin1(b)
    requires Latin1Bytes(a) == Latin1Bytes(b)
    ensures a == b
  {
    assert forall k :: 0 <= k < |a| ==> a[k] as int == Latin1Bytes(a)[k] as int;
    assert forall k :: 0 <= k < |a| ==> a[k] == b[k];
  }

  /** Two different characters outside ISO-8859-1 give the same key. */
  lemma NonLatin1KeysCollide()
    ensures Latin1Bytes("\U{100}") == Latin1Bytes("\U{101}") == ['?' as int as Byte]
  {
  }

  /** `some(credential, unsign).orElse(null)`: an exception thrown by
      `unsign` and a `null` it returns both end as `null`. */
  function Swallow<T>(r: Result<Option<T>, JwtError>): (o: Option<T>)
    ensures o.Some? <==> r.Success? && r.value.Some?
    ensures o.Some? ==> o.value == r.value.value
  {
    match r
    case Success(value) => value
    case Failure(_) => None
  }

  /** `parse(request)`: no credential header gives `null`; otherwise the
      token is verified with the private key when there is one, and with the
      byte-array key otherwise. */
  function Parse(backend: Backend, headers: map<string, string>, jwt: Jwt, claimsJson: Codec<Claims>, draw: Draw,
                 secretUnsign: SecretUnsign): (r: Option<Claims>)
    ensures CredentialHeader !in headers ==> r.None?
  {
    if CredentialHeader !in headers then None
    else
      var credential := headers[CredentialHeader];
      match backend.privateKey
      case Some(privateKey) => Swallow(Unsign(jwt, credential, privateKey, draw, claimsJson))
      case None => Swallow(secretUnsign(credential, backend.key))
  }

  /** The `ClassCastException` of the `(String)` cast when `sub` holds
      something other than a string. */
  datatype AuthError = SubjectNotString

  /** `(String) data.remove("sub")`: an absent or `null` subject is a `null`
      account. */
  function Subject(data: Claims): (r: Result<Option<string>, AuthError>)
    ensures r.Failure? <==> "sub" in data && !data["sub"].Null? && !data["sub"].Str?
    ensures r.Success? && r.value.Some? <==> "sub" in data && data["sub"].Str?
    ensures r.Success? && r.value.Some? ==> data["sub"] == Str(r.value.value)
  {
    if "sub" !in data then Success(None)
    else
      match data["sub"]
      case Null => Success(None)
      case Str(s) => Success(Some(s))
      case _ => Failure(SubjectNotString)
  }

  /** The stream over the permission list: `null` elements dropped, the
      rest rendered with `Objects.toString` and collected into a set. */
  function PermissionSet(items: seq<Value>): (r: set<string>)
    ensures |items| == 0 ==> r == {}
  {
    if |items| == 0 then {}
    else
      var rest := PermissionSet(items[1..]);
      if items[0].Null? then rest else {ToJavaString(items[0])} + rest
  }

  /** The `permissions` entry when it is a `List`, else the empty list. */
  function PermissionItems(data: Claims): (items: seq<Value>)
    ensures "permissions" !in data ==> items == []
  {
    if "permissions" in data && data["permissions"].Array? then data["permissions"].items else []
  }

  /** `authenticate(request, data)`: `null` data is no principal; otherwise
      `sub` and `permissions` are removed from the map, and what remains is
      the profile. */
  function Authenticate(data: Option<Claims>): (r: Result<Option<Principal>, AuthError>)
    ensures data.None? ==> r == Success(None)
    ensures data.Some? ==> (r.Failure? <==> Subject(data.value).Failure?)
    ensures r.Success? && data.Some? ==> r.value.Some?
  {
    match data
    case None => Success(None)
    case Some(m) =>
      var account :- Subject(m);
      Success(Some(Principal(account, m - {"sub", "permissions"}, PermissionSet(PermissionItems(m)))))
  }

  /** A permission is in the set exactly when some non-`null` element of the
      list renders to it. */
  lemma {:induction false} PermissionSetMembers(items: seq<Value>)
    ensures forall x :: x in PermissionSet(items) <==>
      exists i :: 0 <= i < |items| && !items[i].Null? && ToJavaString(items[i]) == x
  {
    if |items| > 0 {
      var tail := items[1..];
      PermissionSetMembers(tail);
      forall x | x in PermissionSet(items)
        ensures exists i :: 0 <= i < |items| && !items[i].Null? && ToJavaString(items[i]) == x
      {
        if x in PermissionSet(tail) {
          var j :| 0 <= j < |tail| && !tail[j].Null? && ToJavaString(tail[j]) == x;
          assert items[j + 1] == tail[j];
        } else {
          assert !items[0].Null? && ToJavaString(items[0]) == x;
        }
      }
      forall x | exists i :: 0 <= i < |items| && !items[i].Null? && ToJavaString(items[i]) == x
        ensures x in PermissionSet(items)
      {
        var i :| 0 <= i < |items| && !items[i].Null? && ToJavaString(items[i]) == x;
        if i > 0 {
          assert tail[i - 1] == items[i];
        }
      }
    }
  }

  /** The principal's account is the `sub` string, and `null` when `sub` is
      absent or `null`. */
  lemma AuthenticatedAccount(m: Claims, name: string)
    requires Authenticate(Some(m)).Success?
    ensures Authenticate(Some(m)).value.value.GetName() == Some(name) <==> "sub" in m && m["sub"] == Str(name)
    ensures Authenticate(Some(m)).value.value.GetName().None? <==> "sub" !in m || m["sub"].Null?
  {
  }

  /** The profile is the claim map without `sub` and `permissions`, every
      other claim kept with its value. */
  lemma AuthenticatedProfiles(m: Claims)
    requires Authenticate(Some(m)).Success?
    ensures var profiles := Authenticate(Some(m)).value.value.GetProfiles();
      && profiles.Keys == m.Keys - {"sub", "permissions"}
      && forall k :: k in profiles ==> profiles[k] == m[k]
  {
  }

  /** The principal has a permission exactly when the `permissions` claim is
      a list with a non-`null` element that renders to it. */
  lemma AuthenticatedPermissions(m: Claims, permission: string)
    requires Authenticate(Some(m)).Success?
    ensures Authenticate(Some(m)).value.value.HasPermission(permission) <==>
      "permissions" in m && m["permissions"].Array? &&
      exists i :: 0 <= i < |m["permissions"].items| && !m["permissions"].items[i].Null? &&
        ToJavaString(m["permissions"].items[i]) == permission
  {
    PermissionSetMembers(PermissionItems(m));
  }

  /** For a list of strings, the permissions are exactly its elements. */
  lemma StringPermissions(items: seq<Value>, permission: string)
    requires forall i :: 0 <= i < |items| ==> items[i].Str?
    ensures permission in PermissionSet(items) <==> Str(permission) in items
  {
    PermissionSetMembers(items);
    if Str(permission) in items {
      var i :| 0 <= i < |items| && items[i] == Str(permission);
      assert ToJavaString(items[i]) == permission;
    }
  }

  /** For a list of numbers, the permissions are exactly their decimal
      texts: distinct numbers stay distinct permissions. */
  lemma NumberPermissions(items: seq<Value>, n: int)
    requires forall i :: 0 <= i < |items| ==> items[i].Int?
    ensures Decimal(n) in PermissionSet(items) <==> Int(n) in items
    ensures forall x :: x in PermissionSet(items) ==> exists i :: 0 <= i < |items| && x == Decimal(items[i].i)
  {
    PermissionSetMembers(items);
    if Decimal(n) in PermissionSet(items) {
      var i :| 0 <= i < |items| && !items[i].Null? && ToJavaString(items[i]) == Decimal(n);
      DecimalInjective(items[i].i, n);
    }
    if Int(n) in items {
      var i :| 0 <= i < |items| && items[i] == Int(n);
      assert ToJavaString(items[i]) == Decimal(n);
    }
  }

  /** Rendering forgets the JSON type: the list `[1, "1"]` grants the one
      permission "1". */
  lemma MixedPermissionsCollapse()
    ensures PermissionSet([Int(1), Str("1")]) == {"1"}
  {
    var items := [Int(1), Str("1")];
    assert items[1..] == [Str("1")];
    assert ToJavaString(Int(1)) == "1";
  }

  /** A `permissions` claim that is not a list grants nothing. */
  lemma NonListPermissionsGrantNothing(m: Claims)
    requires Authenticate(Some(m)).Success?
    requires "permissions" !in m || !m["permissions"].Array?
    ensures Authenticate(Some(m)).value.value.GetPermissions() == {}
  {
  }

  /** With a private key configured, the byte-array key and its unsign play
      no part. */
  lemma PrivateKeyTakesPrecedence(privateKey: PrivateKey, key1: Option<seq<Byte>>, key2: Option<seq<Byte>>,
                                  headers: map<string, string>, jwt: Jwt, claimsJson: Codec<Claims>, draw: Draw,
                                  secretUnsign1: SecretUnsign, secretUnsign2: SecretUnsign)
    ensures Parse(Backend(Some(privateKey), key1), headers, jwt, claimsJson, draw, secretUnsign1)
         == Parse(Backend(Some(privateKey), key2), headers, jwt, claimsJson, draw, secretUnsign2)
  {
  }

  /** Without a private key, the token component's own unsign plays no part:
      the byte-array-key overload alone decides. */
  lemma SecretKeyWithoutPrivateKey(key: Option<seq<Byte>>, headers: map<string, string>, secretUnsign: SecretUnsign,
                                   jwt1: Jwt, claimsJson1: Codec<Claims>, draw1: Draw,
                                   jwt2: Jwt, claimsJson2: Codec<Claims>, draw2: Draw)
    ensures Parse(Backend(None, key), headers, jwt1, claimsJson1, draw1, secretUnsign)
         == Parse(Backend(None, key), headers, jwt2, claimsJson2, draw2, secretUnsign)
  {
  }

  /** A credential signed with the backend's private key parses back to the
      claims that were signed. */
  lemma ParseAcceptsSignedCredential(privateKey: PrivateKey, key: Option<seq<Byte>>, headers: map<string, string>,
                                     jwt: Jwt, claimsJson: Codec<Claims>, claims: Claims, header: JwtHeader,
                                     signDraw: Draw, verifyDraw: Draw, secretUnsign: SecretUnsign)
    requires ReadsBack(jwt.headerJson, header)
    requires ReadsBack(claimsJson, claims)
    requires Sign(jwt, claimsJson, claims, header, privateKey, signDraw).Success?
    requires Lookup(header.alg).Some? && Lookup(header.alg).value != NoSignature ==> Deterministic(jwt.sign, Lookup(header.alg).value)
    requires CredentialHeader in headers
    requires headers[CredentialHeader] == Sign(jwt, claimsJson, claims, header, privateKey, signDraw).value
    ensures Parse(Backend(Some(privateKey), key), headers, jwt, claimsJson, verifyDraw, secretUnsign) == Some(claims)
  {
    SignUnsignRoundTrip(jwt, claimsJson, claims, header, privateKey, signDraw, verifyDraw);
  }

  /** A credential signed with a different key parses to `null`, when the
      signature scheme binds its output to the key. */
  lemma ParseRejectsOtherKey(privateKey: PrivateKey, signKey: PrivateKey, key: Option<seq<Byte>>,
                             headers: map<string, string>, jwt: Jwt, claimsJson: Codec<Claims>, claims: Claims,
                             header: JwtHeader, signDraw: Draw, verifyDraw: Draw, secretUnsign: SecretUnsign)
    requires ReadsBack(jwt.headerJson, header)
    requires Sign(jwt, claimsJson, claims, header, signKey, signDraw).Success?
    requires Lookup(header.alg).value != NoSignature
    requires KeyBound(jwt.sign, Lookup(header.alg).value) && Available(jwt.sign, Lookup(header.alg).value)
    requires signKey != privateKey
    requires CredentialHeader in headers
    requires headers[CredentialHeader] == Sign(jwt, claimsJson, claims, header, signKey, signDraw).value
    ensures Parse(Backend(Some(privateKey), key), headers, jwt, claimsJson, verifyDraw, secretUnsign).None?
  {
    WrongKeyRejected(jwt, claimsJson, claims, header, signKey, signDraw, privateKey, verifyDraw);
  }

  /** An exception inside `unsign` is swallowed: a four-part credential whose
      header segment is not base64url parses to `null`. */
  lemma ParseSwallowsMalformedCredential(privateKey: PrivateKey, key: Option<seq<Byte>>, headers: map<string, string>,
                                         jwt: Jwt, claimsJson: Codec<Claims>, draw: Draw, secretUnsign: SecretUnsign)
    requires CredentialHeader in headers && headers[CredentialHeader] == "a.b.c.d"
    ensures Parse(Backend(Some(privateKey), key), headers, jwt, claimsJson, draw, secretUnsign).None?
  {
    ThreeDotsReachDecoder(jwt, privateKey, draw, claimsJson);
  }

  /** The scenario of the token tests: claims `{"sub": "kawasima"}` signed
      under `RS256` or `HS256` and presented with the same key authenticate
      as the account `kawasima` with no profile and no permissions. */
  lemma SignedSubjectAuthenticates(privateKey: PrivateKey, alg: string, jwt: Jwt, claimsJson: Codec<Claims>,
                                   signDraw: Draw, verifyDraw: Draw, secretUnsign: SecretUnsign)
    requires alg == "RS256" || alg == "HS256"
    requires ReadsBack(jwt.headerJson, SetAlg(JwtHeaders.Fresh, Some(alg)))
    requires ReadsBack(claimsJson, map["sub" := Str("kawasima")])
    requires Sign(jwt, claimsJson, map["sub" := Str("kawasima")], SetAlg(JwtHeaders.Fresh, Some(alg)), privateKey, signDraw).Success?
    requires Deterministic(jwt.sign, Lookup(Some(alg)).value)
    ensures var token := Sign(jwt, claimsJson, map["sub" := Str("kawasima")], SetAlg(JwtHeaders.Fresh, Some(alg)), privateKey, signDraw).value;
      var data := Parse(Backend(Some(privateKey), None), map[CredentialHeader := token], jwt, claimsJson, verifyDraw, secretUnsign);
      Authenticate(data) == Success(Some(Principal(Some("kawasima"), map[], {})))
  {
    var claims: Claims := map["sub" := Str("kawasima")];
    var header := SetAlg(JwtHeaders.Fresh, Some(alg));
    var token := Sign(jwt, claimsJson, claims, header, privateKey, signDraw).value;
    ParseAcceptsSignedCredential(privateKey, None, map[CredentialHeader := token], jwt, claimsJson, claims, header,
                                 signDraw, verifyDraw, secretUnsign);
    KawasimaPrincipal();
  }

  /** The claim map `{"sub": "kawasima"}` authenticates as that account with
      an empty profile and no permissions. */
  lemma KawasimaPrincipal()
    ensures Authenticate(Some(map["sub" := Str("kawasima")])) == Success(Some(Principal(Some("kawasima"), map[], {})))
  {
    var claims: Claims := map["sub" := Str("kawasima")];
    assert claims - {"sub", "permissions"} == map[];
    assert PermissionItems(claims) == [];
  }
}

=== FILE: java_objects.dfy ===
/** The `java.lang` and `java.util.Objects` behaviour the value types rely on:
    32-bit `int` arithmetic, the hash codes of `String` and `Long`,
    `Objects.hash` and `Objects.equals`. */
module JavaObjects {
  import opened Wrappers

  /** 2^32: Java `int` arithmetic is arithmetic modulo this. */
  const IntModulus: int := 0x1_0000_0000

  /** The values of a Java `int`. */
  type Int32 = x: int | -0x8000_0000 <= x < 0x8000_0000

  /** The values of a Java `long`. */
  type Long = x: int | -0x8000_0000_0000_0000 <= x < 0x8000_0000_0000_0000

  /** The argument of an `equals(Object o)`: `null`, an instance of the
      receiver's own class, or an object of some other class. */
  datatype Obj<T> = Null | Instance(value: T) | OtherClass

  /** The `int` a computation overflows to: `x` reduced modulo 2^32 into the
      two's-complement range. */
  function WrapInt32(x: int): (r: Int32)
    ensures (r - x) % IntModulus == 0
  {
    var u := x % IntModulus;
    if u < 0x8000_0000 then u else u - IntModulus
  }

  /** Wrapping only depends on the value modulo 2^32. */
  lemma WrapCongruent(x: int, y: int)
    requires (x - y) % IntModulus == 0
    ensures WrapInt32(x) == WrapInt32(y)
  {
    assert x % IntModulus == y % IntModulus;
  }

  /** An `int` is its own wrap: there is exactly one `int` per residue. */
  lemma WrapInt32Unique(x: int, r: Int32)
    requires (r - x) % IntModulus == 0
    ensures r == WrapInt32(x)
  {
    WrapCongruent(r, x);
  }

  /** The unbounded value of Java's hash loop `acc = 31 * acc + e`: the
      polynomial `acc * 31^n + e0 * 31^(n-1) + ... + e(n-1)`. */
  function Horner(acc: int, es: seq<int>): int
    decreases |es|
  {
    if |es| == 0 then acc else Horner(31 * acc + es[0], es[1..])
  }

  /** Java's hash loop over `int`s, overflowing at every step. */
  function HashFold(acc: Int32, es: seq<Int32>): Int32
    decreases |es|
  {
    if |es| == 0 then acc else HashFold(WrapInt32(31 * acc + es[0]), es[1..])
  }

  /** One overflowing step lands where the unbounded step does, modulo 2^32. */
  lemma WrapStep(a: int, e: int)
    ensures WrapInt32(31 * WrapInt32(a) + e) == WrapInt32(31 * a + e)
  {
    var w := WrapInt32(a);
    var k := (w - a) / IntModulus;
    assert w - a == IntModulus * k;
    assert (31 * w + e) - (31 * a + e) == IntModulus * (31 * k);
    WrapCongruent(31 * w + e, 31 * a + e);
  }

  /** Overflowing at every step gives the unbounded polynomial reduced to 32
      bits, so the hash is a function of the values only. */
  lemma {:induction false} HashFoldIsWrappedHorner(acc: int, es: seq<Int32>)
    ensures HashFold(WrapInt32(acc), es) == WrapInt32(Horner(acc, es))
    decreases |es|
  {
    if |es| != 0 {
      var next := 31 * acc + es[0];
      WrapStep(acc, es[0]);
      HashFoldIsWrappedHorner(next, es[1..]);
    }
  }

  /** The UTF-16 units of a string, here one per character. */
  function CharCodes(s: string): (cs: seq<Int32>)
    ensures |cs| == |s|
    ensures forall i :: 0 <= i < |s| ==> cs[i] == s[i] as int
  {
    seq(|s|, i requires 0 <= i < |s| => s[i] as int)
  }

  /** `String.hashCode()`: `s[0]*31^(n-1) + ... + s[n-1]` in `int` arithmetic. */
  function StringHashCode(s: string): Int32 {
    HashFold(0, CharCodes(s))
  }

  /** `Long.hashCode()`: the low and the high 32 bits exclusive-or'ed,
      `(int) (value ^ (value >>> 32))`. */
  function LongHashCode(v: Long): (h: Int32) {
    var bits := v % 0x1_0000_0000_0000_0000;
    var low, high := bits % IntModulus, bits / IntModulus;
    WrapInt32(((low as bv32) ^ (high as bv32)) as int)
  }

  /** `Objects.hash(e0, ..., e(n-1))`, given the elements' hash codes, with 0
      standing for a `null` element: the hash loop started at 1. */
  function ObjectsHash(es: seq<Int32>): Int32 {
    HashFold(1, es)
  }

  /** The hash code `Objects.hash` uses for a `String` field, `null` included. */
  function HashOfString(o: Option<string>): Int32 {
    match o
    case None => 0
    case Some(s) => StringHashCode(s)
  }

  /** The hash code `Objects.hash` uses for a `Long` field, `null` included. */
  function HashOfLong(o: Option<Long>): Int32 {
    match o
    case None => 0
    case Some(v) => LongHashCode(v)
  }

  /** `Objects.equals(a, b)` for `String` and `Long` fields: both `null`, or
      both present with equal values. */
  function ObjectsEquals<T(==)>(a: Option<T>, b: Option<T>): (r: bool)
    ensures r <==> a == b
  {
    (a.None? && b.None?) || (a.Some? && b.Some? && a.value == b.value)
  }
}

=== FILE: java_text.dfy ===
/** The two `java.lang.String` operations the token format is built from:
    `String.join(delimiter, parts...)` and `String.split(regex, limit)` with a
    positive limit and a one-character, non-special regex such as `"\\."`. */
module JavaText {

  /** How many times `d` occurs in `s`. */
  function Occurrences(s: string, d: char): nat {
    multiset(s)[d]
  }

  /** `s.indexOf(d)`: the first position of `d`, or -1. What the position
      means is stated by `IndexOfMeaning`, kept out of this contract so that
      proofs that only need the range do not pay for the rest. */
  function IndexOf(s: string, d: char): (i: int)
    ensures -1 <= i < |s|
  {
    if |s| == 0 then -1
    else if s[0] == d then 0
    else
      var j := IndexOf(s[1..], d);
      if j == -1 then -1 else j + 1
  }

  /** -1 means there is no `d`; otherwise the position holds `d` and no
      earlier position does. */
  lemma {:induction false} IndexOfMeaning(s: string, d: char)
    ensures var i := IndexOf(s, d);
      && (i == -1 ==> forall k :: 0 <= k < |s| ==> s[k] != d)
      && (0 <= i ==> s[i] == d && forall k :: 0 <= k < i ==> s[k] != d)
  {
    if |s| > 0 && s[0] != d {
      IndexOfMeaning(s[1..], d);
      assert forall k :: 1 <= k < |s| ==> s[k] == s[1..][k - 1];
    }
  }

  /** The first position holding `d` is what `IndexOf` finds. */
  lemma {:induction false} IndexOfIs(s: string, d: char, i: nat)
    requires i < |s| && s[i] == d
    requires forall k :: 0 <= k < i ==> s[k] != d
    ensures IndexOf(s, d) == i
  {
    if i > 0 {
      var tail := s[1..];
      assert tail[i - 1] == s[i];
      assert forall k :: 0 <= k < i - 1 ==> tail[k] == s[k + 1];
      IndexOfIs(tail, d, i - 1);
    }
  }

  /** The text before the first `d`, or all of `s` when it has none. */
  function Before(s: string, d: char): string {
    var i := IndexOf(s, d);
    if i == -1 then s else s[..i]
  }

  /** Text holding `d` loses something when cut before its first `d`. */
  lemma BeforeIsShorter(s: string, d: char)
    requires d in s
    ensures |Before(s, d)| < |s|
  {
    IndexOfMeaning(s, d);
  }

  /** `String.join(String.valueOf(d), parts)`: the parts with `d` between neighbours. */
  function Join(d: char, parts: seq<string>): string {
    if |parts| == 0 then ""
    else if |parts| == 1 then parts[0]
    else parts[0] + [d] + Join(d, parts[1..])
  }

  /** `s.split(d, limit)` for `limit >= 1`: the delimiter is matched at most
      `limit - 1` times from the left, the last part keeps the rest of the
      input (further delimiters included), and empty parts are kept, leading
      and trailing ones alike. */
  function Split(s: string, d: char, limit: int): (parts: seq<string>)
    requires 1 <= limit
    ensures 1 <= |parts| <= limit
    decreases limit
  {
    var i := IndexOf(s, d);
    if limit == 1 || i == -1 then [s] else [s[..i]] + Split(s[i + 1..], d, limit - 1)
  }

  /** `Join` of a head followed by at least one more part. */
  lemma JoinCons(d: char, head: string, rest: seq<string>)
    requires 1 <= |rest|
    ensures Join(d, [head] + rest) == head + [d] + Join(d, rest)
  {
    assert ([head] + rest)[1..] == rest;
  }

  /** A split that stops at once: the limit is one or there is no delimiter. */
  lemma SplitStops(s: string, d: char, limit: int)
    requires 1 <= limit
    requires limit == 1 || IndexOf(s, d) == -1
    ensures Split(s, d, limit) == [s]
    ensures Join(d, [s]) == s
    ensures IndexOf(s, d) == -1 ==> Occurrences(s, d) == 0 && d !in s
  {
    if IndexOf(s, d) == -1 {
      IndexOfMeaning(s, d);
      assert d !in s;
      assert multiset(s)[d] == 0;
    }
  }

  /** A split that cuts at the first delimiter and goes on with the rest. */
  lemma SplitAtFirst(s: string, d: char, limit: int)
    requires 2 <= limit && IndexOf(s, d) != -1
    ensures var i := IndexOf(s, d);
      && Split(s, d, limit) == [s[..i]] + Split(s[i + 1..], d, limit - 1)
      && s == s[..i] + [d] + s[i + 1..]
      && d !in s[..i]
      && (forall k :: 0 <= k < i ==> s[k] != d)
  {
    CutAtFirst(s, d);
  }

  /** The text before the first delimiter, the delimiter, and the rest. */
  lemma CutAtFirst(s: string, d: char)
    requires IndexOf(s, d) != -1
    ensures var i := IndexOf(s, d);
      && s == s[..i] + [d] + s[i + 1..]
      && d !in s[..i]
      && (forall k :: 0 <= k < i ==> s[k] != d)
  {
    var i := IndexOf(s, d);
    IndexOfMeaning(s, d);
    var head := s[..i];
    assert forall k :: 0 <= k < i ==> head[k] != d;
  }

  /** Joining the parts of a split gives back the input: nothing is lost. */
  lemma {:induction false} JoinSplit(s: string, d: char, limit: int)
    requires 1 <= limit
    ensures Join(d, Split(s, d, limit)) == s
    decreases limit
  {
    var i := IndexOf(s, d);
    if limit == 1 || i == -1 {
      SplitStops(s, d, limit);
    } else {
      var tail := s[i + 1..];
      var lower := limit - 1;
      JoinSplit(tail, d, lower);
      JoinSplitStep(s, d, limit);
    }
  }

  /** One cut of `JoinSplit`. */
  lemma JoinSplitStep(s: string, d: char, limit: int)
    requires 2 <= limit && IndexOf(s, d) != -1
    requires var i := IndexOf(s, d); Join(d, Split(s[i + 1..], d, limit - 1)) == s[i + 1..]
    ensures Join(d, Split(s, d, limit)) == s
  {
    var i := IndexOf(s, d);
    SplitAtFirst(s, d, limit);
    JoinCons(d, s[..i], Split(s[i + 1..], d, limit - 1));
  }

  /** Only the last part can hold the delimiter, and only when there are
      `limit` parts. */
  predicate PartsFree(parts: seq<string>, d: char, limit: int) {
    && (forall k :: 0 <= k < |parts| - 1 ==> d !in parts[k])
    && (|parts| < limit ==> 1 <= |parts| && d !in parts[|parts| - 1])
  }

  /** Only the last part of a split can hold the delimiter, and only when
      the limit was reached. */
  lemma {:induction false} SplitPartsFree(s: string, d: char, limit: int)
    requires 1 <= limit
    ensures PartsFree(Split(s, d, limit), d, limit)
    decreases limit
  {
    var i := IndexOf(s, d);
    if limit == 1 || i == -1 {
      SplitStops(s, d, limit);
    } else {
      var tail := s[i + 1..];
      var lower := limit - 1;
      SplitPartsFree(tail, d, lower);
      SplitPartsFreeStep(s, d, limit);
    }
  }

  /** One cut of `SplitPartsFree`. */
  lemma SplitPartsFreeStep(s: string, d: char, limit: int)
    requires 2 <= limit && IndexOf(s, d) != -1
    requires PartsFree(Split(s[IndexOf(s, d) + 1..], d, limit - 1), d, limit - 1)
    ensures PartsFree(Split(s, d, limit), d, limit)
  {
    var i := IndexOf(s, d);
    SplitAtFirst(s, d, limit);
    ConsPartsFree(s[..i], Split(s[i + 1..], d, limit - 1), d, limit);
  }

  /** Prepending a delimiter-free head keeps `SplitPartsFree`'s promise one
      limit up. */
  lemma ConsPartsFree(head: string, rest: seq<string>, d: char, limit: int)
    requires d !in head
    requires 1 <= |rest|
    requires PartsFree(rest, d, limit - 1)
    ensures PartsFree([head] + rest, d, limit)
  {
    var parts := [head] + rest;
    assert forall k :: 1 <= k < |parts| ==> parts[k] == rest[k - 1];
  }

  /** A split yields one more part than there are delimiters, up to `limit`. */
  lemma {:induction false} SplitCount(s: string, d: char, limit: int)
    requires 1 <= limit
    ensures |Split(s, d, limit)| == if Occurrences(s, d) + 1 < limit then Occurrences(s, d) + 1 else limit
    decreases limit
  {
    var i := IndexOf(s, d);
    if limit == 1 || i == -1 {
      SplitStops(s, d, limit);
    } else {
      var tail := s[i + 1..];
      var lower := limit - 1;
      SplitCount(tail, d, lower);
      SplitCountStep(s, d, limit);
    }
  }

  /** One cut of `SplitCount`. */
  lemma SplitCountStep(s: string, d: char, limit: int)
    requires 2 <= limit && IndexOf(s, d) != -1
    requires var tail := s[IndexOf(s, d) + 1..];
      |Split(tail, d, limit - 1)| == if Occurrences(tail, d) + 1 < limit - 1 then Occurrences(tail, d) + 1 else limit - 1
    ensures |Split(s, d, limit)| == if Occurrences(s, d) + 1 < limit then Occurrences(s, d) + 1 else limit
  {
    var i := IndexOf(s, d);
    SplitAtFirst(s, d, limit);
    OccurrencesAfterFirst(s, d, i);
  }

  /** Cutting at the first delimiter removes exactly one occurrence. */
  lemma OccurrencesAfterFirst(s: string, d: char, i: nat)
    requires i < |s| && s[i] == d && forall k :: 0 <= k < i ==> s[k] != d
    ensures Occurrences(s, d) == Occurrences(s[i + 1..], d) + 1
  {
    assert s == s[..i] + [d] + s[i + 1..];
    assert multiset(s) == multiset(s[..i]) + multiset([d]) + multiset(s[i + 1..]);
    assert d !in s[..i];
  }

  /** Splitting text that starts with a delimiter-free head and a delimiter
      cuts just after that head. */
  lemma SplitCons(head: string, d: char, tail: string, limit: int)
    requires 2 <= limit
    requires d !in head
    ensures Split(head + [d] + tail, d, limit) == [head] + Split(tail, d, limit - 1)
  {
    var s := head + [d] + tail;
    assert s[|head|] == d;
    assert forall k :: 0 <= k < |head| ==> s[k] == head[k];
    IndexOfIs(s, d, |head|);
    assert s[..|head|] == head;
    assert s[|head| + 1..] == tail;
  }

  /** Splitting undoes joining: parts with no delimiter, except possibly the
      last one when exactly `limit` parts are joined, come back unchanged. */
  lemma {:induction false} SplitJoin(parts: seq<string>, d: char, limit: int)
    requires 1 <= |parts| <= limit
    requires forall i :: 0 <= i < |parts| - 1 ==> d !in parts[i]
    requires |parts| < limit ==> d !in parts[|parts| - 1]
    ensures Split(Join(d, parts), d, limit) == parts
    decreases |parts|
  {
    if |parts| == 1 {
      SplitWhole(parts[0], d, limit);
    } else {
      var rest := parts[1..];
      var lower := limit - 1;
      RestFree(parts, d, limit);
      SplitJoin(rest, d, lower);
      SplitJoinCons(parts[0], rest, d, limit);
      assert parts == [parts[0]] + rest;
    }
  }

  /** A single part comes back whole when it holds no delimiter or the limit
      is one. */
  lemma SplitWhole(s: string, d: char, limit: int)
    requires 1 <= limit
    requires limit != 1 ==> d !in s
    ensures Join(d, [s]) == s
    ensures Split(s, d, limit) == [s]
  {
    IndexOfMeaning(s, d);
    assert limit != 1 ==> IndexOf(s, d) == -1;
  }

  /** The parts after the first meet `SplitJoin`'s conditions one limit down. */
  lemma RestFree(parts: seq<string>, d: char, limit: int)
    requires 2 <= |parts| <= limit
    requires forall i :: 0 <= i < |parts| - 1 ==> d !in parts[i]
    requires |parts| < limit ==> d !in parts[|parts| - 1]
    ensures var rest := parts[1..];
      && 1 <= |rest| <= limit - 1
      && d !in parts[0]
      && (forall i :: 0 <= i < |rest| - 1 ==> d !in rest[i])
      && (|rest| < limit - 1 ==> d !in rest[|rest| - 1])
  {
    var rest := parts[1..];
    assert forall k :: 0 <= k < |rest| ==> rest[k] == parts[k + 1];
  }

  /** A delimiter-free head in front of parts that split back keeps them
      splitting back. */
  lemma SplitJoinCons(head: string, rest: seq<string>, d: char, limit: int)
    requires 2 <= limit && 1 <= |rest|
    requires d !in head
    requires Split(Join(d, rest), d, limit - 1) == rest
    ensures Split(Join(d, [head] + rest), d, limit) == [head] + rest
  {
    JoinCons(d, head, rest);
    SplitCons(head, d, Join(d, rest), limit);
  }
}

=== FILE: json_value.dfy ===
/** The Java objects a default Jackson `ObjectMapper` reads a JSON document
    into when the target is `Map<String, Object>`, and `Objects.toString` of
    them. */
module JsonValues {

  /** `null`, `Boolean`, an integral number (`Integer`, `Long` or
      `BigInteger`), `String`, `ArrayList` and `LinkedHashMap` (whose
      entries keep the document's order). */
  datatype Value =
    | Null
    | Bool(b: bool)
    | Int(i: int)
    | Str(s: string)
    | Array(items: seq<Value>)
    | Object(entries: seq<(string, Value)>)

  /** The character of one decimal digit. */
  function DigitChar(d: nat): (c: char)
    requires d < 10
    ensures '0' <= c <= '9'
  {
    ('0' as int + d) as char
  }

  /** Every character is a decimal digit. */
  predicate IsDecimal(s: string) {
    forall k :: 0 <= k < |s| ==> '0' <= s[k] <= '9'
  }

  /** The decimal digits of a natural number, most significant first,
      without leading zeros. */
  function NatDigits(n: nat): (s: string)
    ensures 1 <= |s| && IsDecimal(s)
  {
    if n < 10 then [DigitChar(n)] else NatDigits(n / 10) + [DigitChar(n % 10)]
  }

  /** The value of a string of decimal digits. */
  function DigitsValue(s: string): nat
    requires IsDecimal(s)
  {
    if |s| == 0 then 0 else DigitsValue(s[..|s| - 1]) * 10 + (s[|s| - 1] as int - '0' as int)
  }

  /** Reading the digits back gives the number. */
  lemma {:induction false} DigitsValueOfNatDigits(n: nat)
    ensures DigitsValue(NatDigits(n)) == n
  {
    if n >= 10 {
      var s := NatDigits(n);
      var init := NatDigits(n / 10);
      assert s == init + [DigitChar(n % 10)];
      assert s[..|s| - 1] == init;
      DigitsValueOfNatDigits(n / 10);
    }
  }

  /** `Integer.toString`, `Long.toString` and `BigInteger.toString`: a minus
      sign for negative numbers, then the digits. */
  function Decimal(i: int): string {
    if i < 0 then "-" + NatDigits(-i) else NatDigits(i)
  }

  /** Different numbers have different decimal texts. */
  lemma DecimalInjective(a: int, b: int)
    requires Decimal(a) == Decimal(b)
    ensures a == b
  {
    SignShows(a);
    SignShows(b);
    if a < 0 {
      SignedDigitsInjective(NatDigits(-a), NatDigits(-b));
      NatDigitsInjective(-a, -b);
    } else {
      NatDigitsInjective(a, b);
    }
  }

  /** Different natural numbers have different digits. */
  lemma NatDigitsInjective(m: nat, n: nat)
    requires NatDigits(m) == NatDigits(n)
    ensures m == n
  {
    DigitsValueOfNatDigits(m);
    DigitsValueOfNatDigits(n);
  }

  /** A leading minus sign can be cancelled. */
  lemma SignedDigitsInjective(x: string, y: string)
    requires "-" + x == "-" + y
    ensures x == y
  {
    assert x == ("-" + x)[1..];
    assert y == ("-" + y)[1..];
  }

  /** The text starts with a minus sign exactly for negative numbers. */
  lemma SignShows(i: int)
    ensures |Decimal(i)| >= 1
    ensures Decimal(i)[0] == '-' <==> i < 0
  {
  }

  /** `Objects.toString(v)`: "null", "true"/"false", the decimal text, the
      string itself, `[a, b]` for a list and `{k=v, ...}` for a map. */
  function ToJavaString(v: Value): string
    decreases v
  {
    match v
    case Null => "null"
    case Bool(b) => if b then "true" else "false"
    case Int(i) => Decimal(i)
    case Str(s) => s
    case Array(items) => "[" + ItemsText(items) + "]"
    case Object(entries) => "{" + EntriesText(entries) + "}"
  }

  /** The elements of a list, each rendered, separated by ", ". */
  function ItemsText(items: seq<Value>): string
    decreases items
  {
    if |items| == 0 then ""
    else if |items| == 1 then ToJavaString(items[0])
    else ToJavaString(items[0]) + ", " + ItemsText(items[1..])
  }

  /** The entries of a map as `key=value`, separated by ", ". */
  function EntriesText(entries: seq<(string, Value)>): string
    decreases entries
  {
    if |entries| == 0 then ""
    else
      var (key, value) := entries[0];
      assert value < entries[0];
      var entry := key + "=" + ToJavaString(value);
      if |entries| == 1 then entry else entry + ", " + EntriesText(entries[1..])
  }
}

=== FILE: json_web_token.dfy ===
/** The JWS compact serialization of section 7.1 of RFC 7515 as the token
    component writes and reads it: `header "." payload "." signature`, each
    segment base64url text.

    The component's collaborators are parameters: the Jackson mapper is a
    `Codec` per Java type, and the `java.security.Signature` provider is a
    `SignPrimitive`. A codec or primitive is any function at all, so every
    property below holds of every JSON library and every signature scheme
    that meets the stated hypotheses. `ThreadingUtils.some(...).orElse(null)`
    becomes an `Option`: an exception or a `null` along the chain gives
    `None`. Exceptions that escape a public method become a `Failure`. */
module Jws {
  import opened Wrappers
  import opened JavaText
  import opened Base64Url
  import opened Algorithms
  import opened JwtHeaders

  /** A signing key. The model never looks inside it; keys are compared only
      for equality. */
  datatype PrivateKey = PrivateKey(material: seq<Byte>)

  /** What one signature computation draws from the component's `SecureRandom`;
      signing and verifying make separate draws. */
  type Draw = nat

  /** The checked exceptions a `java.security.Signature` can throw. */
  datatype CryptoError = NoSuchAlgorithm | NoSuchProvider | InvalidKey | SignatureFailure

  /** `Signature.getInstance(jcaName, "BC")`, `initSign(key, prng)`,
      `update(input.getBytes())`, `sign()`: the signature bytes, or the
      exception thrown on the way. */
  type SignPrimitive = (string, PrivateKey, Draw, string) -> Result<seq<Byte>, CryptoError>

  /** Jackson's mapping between values of a Java type and JSON bytes; `None`
      stands for an exception or a `null` result. */
  datatype Codec<!T> = Codec(write: T -> Option<seq<Byte>>, read: seq<Byte> -> Option<T>)

  /** The exceptions that leave the component's public methods. */
  datatype JwtError =
    | NoSuchJwtAlgorithm(alg: Option<string>)  // MisconfigurationException "bouncr.NO_SUCH_JWT_ALGORITHM"
    | SigningFailed(cause: CryptoError)        // MisconfigurationException with an empty key
    | Unreachable(cause: CryptoError)          // UnreachableException
    | IllegalBase64                            // IllegalArgumentException of the base64 decoder
    | UncheckedIO                              // UncheckedIOException around Jackson's IOException

  /** A started component: its mapper for headers and its signature provider. */
  datatype Jwt = Jwt(headerJson: Codec<JwtHeader>, sign: SignPrimitive)

  /** The separator of the compact serialization. */
  const Dot: char := '.'

  /** How `String.join` renders an argument: `null` becomes the text "null". */
  function Text(s: Option<string>): string {
    match s
    case None => "null"
    case Some(t) => t
  }

  /** A value written as JSON and then as base64url text: `some(v,
      mapper::writeValueAsBytes, encoder::encodeToString).orElse(null)`. The
      text decodes back to the JSON bytes and never holds a dot. */
  function EncodeJson<T>(c: Codec<T>, v: T): (r: Option<string>)
    ensures r.Some? <==> c.write(v).Some?
    ensures r.Some? ==> Decode(r.value) == c.write(v)
    ensures r.Some? ==> Dot !in r.value
  {
    match c.write(v)
    case None => None
    case Some(json) =>
      DecodeEncode(json);
      EncodeHasNoDot(json);
      Some(Encode(json))
  }

  /** `encodeHeader(header)`. */
  function EncodeHeader(jwt: Jwt, header: JwtHeader): (r: Option<string>)
    ensures r.Some? <==> jwt.headerJson.write(header).Some?
    ensures r.Some? ==> Decode(r.value) == jwt.headerJson.write(header)
  {
    EncodeJson(jwt.headerJson, header)
  }

  /** `decodePayload(encoded, payloadType)`: base64url-decode, then read the
      JSON; a failure at either step gives `None`. */
  function DecodePayload<T>(encoded: string, payloadType: Codec<T>): (r: Option<T>)
    ensures Decode(encoded).None? ==> r.None?
    ensures Decode(encoded).Some? ==> r == payloadType.read(Decode(encoded).value)
  {
    match Decode(encoded)
    case None => None
    case Some(json) => payloadType.read(json)
  }

  /** The text a signature is computed over: `String.join(".", header,
      payload)`, the encoded segments and not the bytes they decode to. */
  function SigningInput(header: string, payload: string): (r: string)
    ensures r == header + [Dot] + payload
  {
    JoinCons(Dot, header, [payload]);
    assert [header] + [payload] == [header, payload];
    Join(Dot, [header, payload])
  }

  /** The provider recomputes, for this draw, exactly the signature text
      `signature`. */
  predicate Reproduces(jwt: Jwt, jcaName: string, key: PrivateKey, draw: Draw, input: string, signature: string) {
    var s := jwt.sign(jcaName, key, draw, input);
    s.Success? && Encode(s.value) == signature
  }

  /** `verifySignature(alg, signature, key, header, payload)`: unknown
      algorithms are a misconfiguration; `none` accepts anything; otherwise
      the signing input is signed again with the same key and the result
      compared with `signature` as text. A missing algorithm or provider is
      unreachable; a failed or refused signature is a mismatch. */
  function VerifySignature(jwt: Jwt, alg: Option<string>, signature: string, key: PrivateKey, draw: Draw,
                           header: string, payload: string): (r: Result<bool, JwtError>)
    ensures r == Failure(NoSuchJwtAlgorithm(alg)) <==> Lookup(alg).None?
    ensures Lookup(alg) == Some(NoSignature) ==> r == Success(true)
    ensures r == Success(true) <==>
      Lookup(alg).Some? &&
      (Lookup(alg).value == NoSignature ||
       Reproduces(jwt, Lookup(alg).value, key, draw, SigningInput(header, payload), signature))
    ensures Lookup(alg).Some? && Lookup(alg).value != NoSignature ==>
      var s := jwt.sign(Lookup(alg).value, key, draw, SigningInput(header, payload));
      && (s == Failure(InvalidKey) || s == Failure(SignatureFailure) ==> r == Success(false))
      && (s == Failure(NoSuchAlgorithm) || s == Failure(NoSuchProvider) ==> r == Failure(Unreachable(s.error)))
    ensures r.Failure? ==>
      (Lookup(alg).None? ||
       jwt.sign(Lookup(alg).value, key, draw, SigningInput(header, payload)) in {Failure(NoSuchAlgorithm), Failure(NoSuchProvider)})
  {
    match Lookup(alg)
    case None => Failure(NoSuchJwtAlgorithm(alg))
    case Some(jcaName) =>
      if jcaName == NoSignature then Success(true)
      else
        match jwt.sign(jcaName, key, draw, SigningInput(header, payload))
        case Success(bytes) => Success(signature == Encode(bytes))
        case Failure(NoSuchAlgorithm) => Failure(Unreachable(NoSuchAlgorithm))
        case Failure(NoSuchProvider) => Failure(Unreachable(NoSuchProvider))
        case Failure(SignatureFailure) => Success(false)
        case Failure(InvalidKey) => Success(false)
  }

  /** `unsign(message, key, payloadType)` (the `Class<T>` overload delegates
      here): split at the first two dots; fewer than three parts is `null`.
      The header segment must decode (else IllegalArgumentException) and parse
      (else UncheckedIOException); a verified signature yields the decoded
      payload, which is itself `null` when it does not decode or parse. */
  function Unsign<T>(jwt: Jwt, message: string, key: PrivateKey, draw: Draw, payloadType: Codec<T>): (r: Result<Option<T>, JwtError>)
    ensures Occurrences(message, Dot) < 2 ==> r == Success(None)
    ensures var tokens := Split(message, Dot, 3);
      |tokens| == 3 && Decode(tokens[0]).None? ==> r == Failure(IllegalBase64)
    ensures var tokens := Split(message, Dot, 3);
      |tokens| == 3 && Decode(tokens[0]).Some? && jwt.headerJson.read(Decode(tokens[0]).value).None? ==>
        r == Failure(UncheckedIO)
    ensures var tokens := Split(message, Dot, 3);
      |tokens| == 3 && Decode(tokens[0]).Some? && jwt.headerJson.read(Decode(tokens[0]).value).Some? ==>
        var verified := VerifySignature(jwt, jwt.headerJson.read(Decode(tokens[0]).value).value.alg,
                                        tokens[2], key, draw, tokens[0], tokens[1]);
        && (verified == Success(true) ==> r == Success(DecodePayload(tokens[1], payloadType)))
        && (verified == Success(false) ==> r == Success(None))
        && (verified.Failure? ==> r == Failure(verified.error))
    ensures r.Success? && r.value.Some? ==>
      var tokens := Split(message, Dot, 3);
      && |tokens| == 3
      && Decode(tokens[0]).Some? && jwt.headerJson.read(Decode(tokens[0]).value).Some?
      && VerifySignature(jwt, jwt.headerJson.read(Decode(tokens[0]).value).value.alg,
                         tokens[2], key, draw, tokens[0], tokens[1]) == Success(true)
      && DecodePayload(tokens[1], payloadType) == r.value
  {
    var tokens := Split(message, Dot, 3);
    SplitCount(message, Dot, 3);
    if |tokens| != 3 then Success(None)
    else
      match Decode(tokens[0])
      case None => Failure(IllegalBase64)
      case Some(headerJson) =>
        match jwt.headerJson.read(headerJson)
        case None => Failure(UncheckedIO)
        case Some(header) =>
          var verified :- VerifySignature(jwt, header.alg, tokens[2], key, draw, tokens[0], tokens[1]);
          if verified then Success(DecodePayload(tokens[1], payloadType)) else Success(None)
  }

  /** The third segment `sign` writes: empty for `none`, else the base64url
      text of the provider's signature. A missing algorithm is unreachable;
      a missing provider, a refused key or a failed signature is a
      misconfiguration. */
  function SignatureSegment(jwt: Jwt, jcaName: string, key: PrivateKey, draw: Draw, input: string): (r: Result<string, JwtError>)
    ensures r.Success? ==> Dot !in r.value
    ensures jcaName == NoSignature ==> r == Success("")
    ensures r.Success? ==> (r.value == "" <==> jcaName == NoSignature || jwt.sign(jcaName, key, draw, input) == Success([]))
    ensures jcaName != NoSignature ==>
      var s := jwt.sign(jcaName, key, draw, input);
      && (r.Success? <==> s.Success?)
      && (s.Success? ==> Decode(r.value) == Some(s.value))
      && (s == Failure(NoSuchAlgorithm) ==> r == Failure(Unreachable(NoSuchAlgorithm)))
      && (s.Failure? && s.error != NoSuchAlgorithm ==> r == Failure(SigningFailed(s.error)))
  {
    if jcaName == NoSignature then Success("")
    else
      match jwt.sign(jcaName, key, draw, input)
      case Success(bytes) =>
        EncodeHasNoDot(bytes);
        EncodeEmpty(bytes);
        DecodeEncode(bytes);
        Success(Encode(bytes))
      case Failure(NoSuchAlgorithm) => Failure(Unreachable(NoSuchAlgorithm))
      case Failure(e) => Failure(SigningFailed(e))
  }

  /** `sign(payload, header, key)` for a payload that is already text
      (`null` allowed): `encodedHeader "." payload "." signature`, the
      signature computed over the first two segments as text. */
  function SignRaw(jwt: Jwt, payload: Option<string>, header: JwtHeader, key: PrivateKey, draw: Draw): (r: Result<string, JwtError>)
    ensures r == Failure(NoSuchJwtAlgorithm(header.alg)) <==> Lookup(header.alg).None?
    ensures r.Success? ==> Split(r.value, Dot, 3)[0] == Text(EncodeHeader(jwt, header))
    ensures r.Success? ==>
      var h := Text(EncodeHeader(jwt, header));
      var segment := SignatureSegment(jwt, Lookup(header.alg).value, key, draw, SigningInput(h, Text(payload)));
      && segment.Success?
      && r.value == h + [Dot] + (Text(payload) + [Dot] + segment.value)
    ensures Lookup(header.alg).Some? && Lookup(header.alg).value != NoSignature ==>
      var s := jwt.sign(Lookup(header.alg).value, key, draw, SigningInput(Text(EncodeHeader(jwt, header)), Text(payload)));
      && (r.Success? <==> s.Success?)
      && (s == Failure(NoSuchAlgorithm) ==> r == Failure(Unreachable(NoSuchAlgorithm)))
      && (s.Failure? && s.error != NoSuchAlgorithm ==> r == Failure(SigningFailed(s.error)))
    ensures Lookup(header.alg) == Some(NoSignature) ==> r.Success?
  {
    var encodedHeader := Text(EncodeHeader(jwt, header));
    match Lookup(header.alg)
    case None => Failure(NoSuchJwtAlgorithm(header.alg))
    case Some(jcaName) =>
      var segment := SignatureSegment(jwt, jcaName, key, draw, SigningInput(encodedHeader, Text(payload)));
      if segment.Failure? then Failure(segment.error)
      else
        var token := Join(Dot, [encodedHeader, Text(payload), segment.value]);
        HeaderComesFirst(encodedHeader, Text(payload), segment.value);
        JoinThree(encodedHeader, Text(payload), segment.value);
        Success(token)
  }

  /** `sign(claims, header, key)` for a `Map` or a `JwtClaim`: the claims
      written as JSON and base64url text (or `null` when writing fails),
      then signed as above. */
  function Sign<T>(jwt: Jwt, payloadJson: Codec<T>, claims: T, header: JwtHeader, key: PrivateKey, draw: Draw): (r: Result<string, JwtError>)
    ensures r == Failure(NoSuchJwtAlgorithm(header.alg)) <==> Lookup(header.alg).None?
    ensures r.Success? ==>
      var tokens := Split(r.value, Dot, 3);
      |tokens| == 3 && tokens[1] == Text(EncodeJson(payloadJson, claims))
    ensures Lookup(header.alg).Some? && Lookup(header.alg).value != NoSignature ==>
      var input := SigningInput(Text(EncodeHeader(jwt, header)), Text(EncodeJson(payloadJson, claims)));
      var s := jwt.sign(Lookup(header.alg).value, key, draw, input);
      && (r.Success? <==> s.Success?)
      && (s == Failure(NoSuchAlgorithm) ==> r == Failure(Unreachable(NoSuchAlgorithm)))
      && (s.Failure? && s.error != NoSuchAlgorithm ==> r == Failure(SigningFailed(s.error)))
    ensures Lookup(header.alg) == Some(NoSignature) ==> r.Success?
  {
    var payload := EncodeJson(payloadJson, claims);
    var r := SignRaw(jwt, payload, header, key, draw);
    if r.Success? then
      HeaderTextHasNoDot(payload);
      SignedTokenSplits(jwt, payload, header, key, draw);
      r
    else r
  }

  /** An encoded header, or the text "null", holds no dot. */
  lemma HeaderTextHasNoDot(h: Option<string>)
    requires h.Some? ==> Dot !in h.value
    ensures Dot !in Text(h)
  {
  }

  /** Three parts joined by dots: the first, a dot, and the other two joined. */
  lemma JoinThree(a: string, b: string, c: string)
    ensures Join(Dot, [a, b, c]) == a + [Dot] + (b + [Dot] + c)
  {
    JoinCons(Dot, a, [b, c]);
    JoinCons(Dot, b, [c]);
    assert [a] + [b, c] == [a, b, c];
    assert [b] + [c] == [b, c];
  }

  /** The header is the first part of a token built by `sign`. */
  lemma HeaderComesFirst(header: string, payload: string, signature: string)
    requires Dot !in header
    ensures Split(Join(Dot, [header, payload, signature]), Dot, 3)[0] == header
  {
    JoinCons(Dot, header, [payload, signature]);
    assert [header, payload, signature] == [header] + [payload, signature];
    SplitCons(header, Dot, Join(Dot, [payload, signature]), 3);
  }

  /** A token built by `sign` from a payload text without dots splits back
      into exactly the three segments it was joined from. */
  lemma SignedTokenSplits(jwt: Jwt, payload: Option<string>, header: JwtHeader, key: PrivateKey, draw: Draw)
    requires SignRaw(jwt, payload, header, key, draw).Success?
    requires Dot !in Text(payload)
    ensures var encodedHeader := Text(EncodeHeader(jwt, header));
      var input := SigningInput(encodedHeader, Text(payload));
      var signature := SignatureSegment(jwt, Lookup(header.alg).value, key, draw, input);
      && signature.Success?
      && Split(SignRaw(jwt, payload, header, key, draw).value, Dot, 3) == [encodedHeader, Text(payload), signature.value]
  {
    var encodedHeader := Text(EncodeHeader(jwt, header));
    HeaderTextHasNoDot(EncodeHeader(jwt, header));
    var input := SigningInput(encodedHeader, Text(payload));
    var signature := SignatureSegment(jwt, Lookup(header.alg).value, key, draw, input);
    var parts := [encodedHeader, Text(payload), signature.value];
    assert SignRaw(jwt, payload, header, key, draw).value == Join(Dot, parts);
    SplitJoin(parts, Dot, 3);
  }
}

=== FILE: jws_properties.dfy ===
/** What the token component promises, and what it does not: the sign/unsign
    round trip for signers whose output does not depend on the random draw,
    the rejection of a token whose signature the verifier cannot reproduce,
    and the corners of the segment split. */
module JwsProperties {
  import opened Wrappers
  import opened JavaText
  import opened Base64Url
  import opened Algorithms
  import opened JwtHeaders
  import opened Jws

  /** The codec reads back exactly what it writes for `v`. */
  ghost predicate ReadsBack<T>(c: Codec<T>, v: T) {
    c.write(v).Some? && c.read(c.write(v).value) == Some(v)
  }

  /** The provider's output for `jcaName` does not depend on the random draw,
      as for HMAC and RSASSA-PKCS1-v1_5 but not for RSASSA-PSS. */
  ghost predicate Deterministic(sign: SignPrimitive, jcaName: string) {
    forall key, d1, d2, input :: sign(jcaName, key, d1, input) == sign(jcaName, key, d2, input)
  }

  /** The provider for `jcaName` is installed: it never reports a missing
      algorithm or provider. */
  ghost predicate Available(sign: SignPrimitive, jcaName: string) {
    forall key, draw, input ::
      sign(jcaName, key, draw, input) != Failure(NoSuchAlgorithm) &&
      sign(jcaName, key, draw, input) != Failure(NoSuchProvider)
  }

  /** A signature made with one key is never what another key makes. */
  ghost predicate KeyBound(sign: SignPrimitive, jcaName: string) {
    forall k1, k2, d1, d2, input ::
      k1 != k2 && sign(jcaName, k1, d1, input).Success? ==> sign(jcaName, k2, d2, input) != sign(jcaName, k1, d1, input)
  }

  /** The text `sign(claims, header, key)` signs. */
  function TokenInput<T>(jwt: Jwt, payloadJson: Codec<T>, claims: T, header: JwtHeader): string {
    SigningInput(Text(EncodeHeader(jwt, header)), Text(EncodeJson(payloadJson, claims)))
  }

  /** A signed token splits into the encoded header, the encoded claims and
      the signature segment, and the first two are what was signed. */
  lemma SignedTokenParts<T>(jwt: Jwt, payloadJson: Codec<T>, claims: T, header: JwtHeader, key: PrivateKey, draw: Draw)
    requires Sign(jwt, payloadJson, claims, header, key, draw).Success?
    ensures var tokens := Split(Sign(jwt, payloadJson, claims, header, key, draw).value, Dot, 3);
      var segment := SignatureSegment(jwt, Lookup(header.alg).value, key, draw, TokenInput(jwt, payloadJson, claims, header));
      && segment.Success?
      && tokens == [Text(EncodeHeader(jwt, header)), Text(EncodeJson(payloadJson, claims)), segment.value]
      && SigningInput(tokens[0], tokens[1]) == TokenInput(jwt, payloadJson, claims, header)
  {
    var payload := EncodeJson(payloadJson, claims);
    HeaderTextHasNoDot(payload);
    SignedTokenSplits(jwt, payload, header, key, draw);
  }

  /** The signature segment is empty exactly when the algorithm is `none` or
      the provider produced no bytes. */
  lemma SignatureEmptyIffNone<T>(jwt: Jwt, payloadJson: Codec<T>, claims: T, header: JwtHeader, key: PrivateKey, draw: Draw)
    requires Sign(jwt, payloadJson, claims, header, key, draw).Success?
    ensures var tokens := Split(Sign(jwt, payloadJson, claims, header, key, draw).value, Dot, 3);
      var jcaName := Lookup(header.alg).value;
      |tokens| == 3 &&
      (tokens[2] == "" <==>
        jcaName == NoSignature || jwt.sign(jcaName, key, draw, TokenInput(jwt, payloadJson, claims, header)) == Success([]))
  {
    SignedTokenParts(jwt, payloadJson, claims, header, key, draw);
  }

  /** Re-signing with the same key reproduces the signature when the
      provider ignores the draw. */
  lemma ResignReproduces(jwt: Jwt, jcaName: string, key: PrivateKey, signDraw: Draw, verifyDraw: Draw, input: string)
    requires jcaName != NoSignature
    requires Deterministic(jwt.sign, jcaName)
    requires SignatureSegment(jwt, jcaName, key, signDraw, input).Success?
    ensures Reproduces(jwt, jcaName, key, verifyDraw, input, SignatureSegment(jwt, jcaName, key, signDraw, input).value)
  {
    assert jwt.sign(jcaName, key, signDraw, input) == jwt.sign(jcaName, key, verifyDraw, input);
  }

  /** The header segment of a signed token decodes and parses back to the
      header. */
  lemma HeaderReadsBack(jwt: Jwt, header: JwtHeader)
    requires ReadsBack(jwt.headerJson, header)
    ensures var encoded := Text(EncodeHeader(jwt, header));
      Decode(encoded).Some? && jwt.headerJson.read(Decode(encoded).value) == Some(header)
  {
  }

  /** The claims segment of a signed token decodes back to the claims. */
  lemma PayloadReadsBack<T>(payloadJson: Codec<T>, claims: T)
    requires ReadsBack(payloadJson, claims)
    ensures DecodePayload(Text(EncodeJson(payloadJson, claims)), payloadJson) == Some(claims)
  {
  }

  /** `unsign` undoes `sign` with the same key, whatever either draw was,
      when the mapper reads back what it writes and the algorithm's
      signatures do not depend on the draw (every listed algorithm but
      PS256, PS384 and PS512). */
  lemma SignUnsignRoundTrip<T>(jwt: Jwt, payloadJson: Codec<T>, claims: T, header: JwtHeader, key: PrivateKey,
                               signDraw: Draw, verifyDraw: Draw)
    requires ReadsBack(jwt.headerJson, header)
    requires ReadsBack(payloadJson, claims)
    requires Sign(jwt, payloadJson, claims, header, key, signDraw).Success?
    requires Lookup(header.alg).Some? && Lookup(header.alg).value != NoSignature ==> Deterministic(jwt.sign, Lookup(header.alg).value)
    ensures Unsign(jwt, Sign(jwt, payloadJson, claims, header, key, signDraw).value, key, verifyDraw, payloadJson)
      == Success(Some(claims))
  {
    var token := Sign(jwt, payloadJson, claims, header, key, signDraw).value;
    var jcaName := Lookup(header.alg).value;
    var input := TokenInput(jwt, payloadJson, claims, header);
    SignedTokenParts(jwt, payloadJson, claims, header, key, signDraw);
    var tokens := Split(token, Dot, 3);
    HeaderReadsBack(jwt, header);
    PayloadReadsBack(payloadJson, claims);
    if jcaName != NoSignature {
      ResignReproduces(jwt, jcaName, key, signDraw, verifyDraw, input);
    }
    assert VerifySignature(jwt, header.alg, tokens[2], key, verifyDraw, tokens[0], tokens[1]) == Success(true);
  }

  /** The hypotheses above can all be met at once: a mapper that writes a
      header or a claim value as fixed bytes and reads those back, and a
      provider whose signature is the key material, which ignores the draw,
      is always installed and differs from key to key. */
  lemma HypothesesSatisfiable(key: PrivateKey, draw: Draw)
    ensures var header := SetAlg(JwtHeaders.Fresh, Some("HS256"));
      var jwt := Jwt(Codec(h => Some([]), b => Some(header)), (alg, k: PrivateKey, d, input) => Success(k.material));
      var claimsJson := Codec((c: int) => Some([1]), b => Some(42));
      && ReadsBack(jwt.headerJson, header) && ReadsBack(claimsJson, 42)
      && Sign(jwt, claimsJson, 42, header, key, draw).Success?
      && Deterministic(jwt.sign, Lookup(header.alg).value)
      && Available(jwt.sign, Lookup(header.alg).value)
      && KeyBound(jwt.sign, Lookup(header.alg).value)
  {
    var header := SetAlg(JwtHeaders.Fresh, Some("HS256"));
    assert Lookup(header.alg) == Some("HmacSHA256");
  }

  /** The hypotheses of `RandomizedResignRejected` can be met too: under
      PS256, a provider whose signature depends only on the draw signs the
      same input differently for draws 0 and 1. */
  lemma RandomizedHypothesesSatisfiable(key: PrivateKey)
    ensures var header := SetAlg(JwtHeaders.Fresh, Some("PS256"));
      var jwt := Jwt(Codec(h => Some([]), b => Some(header)),
                     (alg, k: PrivateKey, d: Draw, input) => Success(if d == 0 then [0] else [1]));
      var claimsJson := Codec((c: int) => Some([1]), b => Some(42));
      var jcaName, input := Lookup(header.alg).value, TokenInput(jwt, claimsJson, 42, header);
      && ReadsBack(jwt.headerJson, header)
      && Sign(jwt, claimsJson, 42, header, key, 0).Success?
      && jcaName != NoSignature && Available(jwt.sign, jcaName)
      && jwt.sign(jcaName, key, 1, input) != jwt.sign(jcaName, key, 0, input)
      && !Deterministic(jwt.sign, jcaName)
  {
    var header := SetAlg(JwtHeaders.Fresh, Some("PS256"));
    assert Lookup(header.alg) == Some("SHA256withRSAandMGF1");
  }

  /** When re-signing does not give back the token's signature (another
      key, or a fresh draw of a randomized scheme such as RSASSA-PSS), the
      verifier answers `null`, even for a token the component signed itself.
      Only a missing algorithm or provider would raise instead. */
  lemma MismatchedResignRejected<T>(jwt: Jwt, payloadJson: Codec<T>, claims: T, header: JwtHeader,
                                    signKey: PrivateKey, signDraw: Draw, verifyKey: PrivateKey, verifyDraw: Draw)
    requires ReadsBack(jwt.headerJson, header)
    requires Sign(jwt, payloadJson, claims, header, signKey, signDraw).Success?
    requires Lookup(header.alg).value != NoSignature
    requires var jcaName, input := Lookup(header.alg).value, TokenInput(jwt, payloadJson, claims, header);
      var resigned := jwt.sign(jcaName, verifyKey, verifyDraw, input);
      && resigned != jwt.sign(jcaName, signKey, signDraw, input)
      && resigned != Failure(NoSuchAlgorithm) && resigned != Failure(NoSuchProvider)
    ensures Unsign(jwt, Sign(jwt, payloadJson, claims, header, signKey, signDraw).value, verifyKey, verifyDraw, payloadJson)
      == Success(None)
  {
    var token := Sign(jwt, payloadJson, claims, header, signKey, signDraw).value;
    var jcaName := Lookup(header.alg).value;
    var input := TokenInput(jwt, payloadJson, claims, header);
    SignedTokenParts(jwt, payloadJson, claims, header, signKey, signDraw);
    var tokens := Split(token, Dot, 3);
    HeaderReadsBack(jwt, header);
    ResignMismatch(jwt, header.alg, signKey, signDraw, verifyKey, verifyDraw, tokens[0], tokens[1]);
    assert VerifySignature(jwt, header.alg, tokens[2], verifyKey, verifyDraw, tokens[0], tokens[1]) == Success(false);
  }

  /** A segment written by one signing is checked by signing again; when
      that second signing gives other bytes, or throws a key or signature
      exception, verification answers false rather than raising. */
  lemma ResignMismatch(jwt: Jwt, alg: Option<string>, signKey: PrivateKey, signDraw: Draw,
                       verifyKey: PrivateKey, verifyDraw: Draw, header: string, payload: string)
    requires Lookup(alg).Some? && Lookup(alg).value != NoSignature
    requires SignatureSegment(jwt, Lookup(alg).value, signKey, signDraw, SigningInput(header, payload)).Success?
    requires var jcaName, input := Lookup(alg).value, SigningInput(header, payload);
      var resigned := jwt.sign(jcaName, verifyKey, verifyDraw, input);
      && resigned != jwt.sign(jcaName, signKey, signDraw, input)
      && resigned != Failure(NoSuchAlgorithm) && resigned != Failure(NoSuchProvider)
    ensures var segment := SignatureSegment(jwt, Lookup(alg).value, signKey, signDraw, SigningInput(header, payload)).value;
      VerifySignature(jwt, alg, segment, verifyKey, verifyDraw, header, payload) == Success(false)
  {
    var jcaName, input := Lookup(alg).value, SigningInput(header, payload);
    var signed := jwt.sign(jcaName, signKey, signDraw, input).value;
    var resigned := jwt.sign(jcaName, verifyKey, verifyDraw, input);
    if resigned.Success? && Encode(resigned.value) == Encode(signed) {
      EncodeInjective(resigned.value, signed);
    }
  }

  /** A token signed with one key does not verify under another key, when
      each key's signatures are its own and the provider is installed. */
  lemma WrongKeyRejected<T>(jwt: Jwt, payloadJson: Codec<T>, claims: T, header: JwtHeader,
                            signKey: PrivateKey, signDraw: Draw, verifyKey: PrivateKey, verifyDraw: Draw)
    requires ReadsBack(jwt.headerJson, header)
    requires Sign(jwt, payloadJson, claims, header, signKey, signDraw).Success?
    requires Lookup(header.alg).value != NoSignature
    requires KeyBound(jwt.sign, Lookup(header.alg).value) && Available(jwt.sign, Lookup(header.alg).value)
    requires signKey != verifyKey
    ensures Unsign(jwt, Sign(jwt, payloadJson, claims, header, signKey, signDraw).value, verifyKey, verifyDraw, payloadJson)
      == Success(None)
  {
    var jcaName, input := Lookup(header.alg).value, TokenInput(jwt, payloadJson, claims, header);
    SignedTokenParts(jwt, payloadJson, claims, header, signKey, signDraw);
    assert jwt.sign(jcaName, signKey, signDraw, input).Success?;
    assert jwt.sign(jcaName, verifyKey, verifyDraw, input) != jwt.sign(jcaName, signKey, signDraw, input);
    assert jwt.sign(jcaName, verifyKey, verifyDraw, input) != Failure(NoSuchAlgorithm);
    assert jwt.sign(jcaName, verifyKey, verifyDraw, input) != Failure(NoSuchProvider);
    MismatchedResignRejected(jwt, payloadJson, claims, header, signKey, signDraw, verifyKey, verifyDraw);
  }

  /** With the same key, a randomized scheme whose fresh draw gives other
      bytes rejects the component's own token. */
  lemma RandomizedResignRejected<T>(jwt: Jwt, payloadJson: Codec<T>, claims: T, header: JwtHeader,
                                    key: PrivateKey, signDraw: Draw, verifyDraw: Draw)
    requires ReadsBack(jwt.headerJson, header)
    requires Sign(jwt, payloadJson, claims, header, key, signDraw).Success?
    requires Lookup(header.alg).value != NoSignature && Available(jwt.sign, Lookup(header.alg).value)
    requires var jcaName, input := Lookup(header.alg).value, TokenInput(jwt, payloadJson, claims, header);
      jwt.sign(jcaName, key, verifyDraw, input) != jwt.sign(jcaName, key, signDraw, input)
    ensures Unsign(jwt, Sign(jwt, payloadJson, claims, header, key, signDraw).value, key, verifyDraw, payloadJson)
      == Success(None)
  {
    var jcaName, input := Lookup(header.alg).value, TokenInput(jwt, payloadJson, claims, header);
    assert jwt.sign(jcaName, key, verifyDraw, input) != Failure(NoSuchAlgorithm);
    assert jwt.sign(jcaName, key, verifyDraw, input) != Failure(NoSuchProvider);
    MismatchedResignRejected(jwt, payloadJson, claims, header, key, signDraw, key, verifyDraw);
  }

  /** A message whose header names `none` is accepted with any third
      segment, further dots included, under any key: the payload segment is
      decoded and returned. */
  lemma NoneAcceptsAnySignature<T>(jwt: Jwt, headerJson: seq<Byte>, header: JwtHeader, payload: string,
                                   signature: string, key: PrivateKey, draw: Draw, payloadType: Codec<T>)
    requires jwt.headerJson.read(headerJson) == Some(header)
    requires Lookup(header.alg) == Some(NoSignature)
    requires Dot !in payload
    ensures Unsign(jwt, Join(Dot, [Encode(headerJson), payload, signature]), key, draw, payloadType)
      == Success(DecodePayload(payload, payloadType))
  {
    var parts := [Encode(headerJson), payload, signature];
    EncodeHasNoDot(headerJson);
    SplitJoin(parts, Dot, 3);
    DecodeEncode(headerJson);
  }

  /** A header naming an unlisted algorithm is refused by `sign` and, once
      inside a message, by `unsign`, whatever the rest of the message. */
  lemma UnknownAlgorithmRejected<T>(jwt: Jwt, headerJson: seq<Byte>, header: JwtHeader, payload: string,
                                    signature: string, key: PrivateKey, draw: Draw, payloadType: Codec<T>)
    requires jwt.headerJson.read(headerJson) == Some(header)
    requires Lookup(header.alg).None?
    requires Dot !in payload
    ensures Unsign(jwt, Join(Dot, [Encode(headerJson), payload, signature]), key, draw, payloadType)
      == Failure(NoSuchJwtAlgorithm(header.alg))
    ensures SignRaw(jwt, Some(payload), header, key, draw) == Failure(NoSuchJwtAlgorithm(header.alg))
  {
    var parts := [Encode(headerJson), payload, signature];
    EncodeHasNoDot(headerJson);
    SplitJoin(parts, Dot, 3);
    DecodeEncode(headerJson);
  }

  /** The first dot of a text that holds one is the first dot of any
      longer text it begins. */
  lemma IndexOfPrefix(s: string, rest: string, d: char)
    requires d in s
    ensures 0 <= IndexOf(s, d)
    ensures IndexOf(s + rest, d) == IndexOf(s, d)
  {
    var i := IndexOf(s, d);
    var t := s + rest;
    IndexOfMeaning(s, d);
    assert 0 <= i;
    assert forall k :: 0 <= k <= i ==> t[k] == s[k];
    IndexOfIs(t, d, i);
  }

  /** Split once, a text whose first part holds a dot gives that part only
      up to its first dot. */
  lemma FirstPartCut(p: string, rest: string)
    requires Dot in p
    ensures |Split(p + [Dot] + rest, Dot, 2)| == 2
    ensures Split(p + [Dot] + rest, Dot, 2)[0] == Before(p, Dot)
  {
    var t := p + [Dot] + rest;
    var i := IndexOf(p, Dot);
    IndexOfPrefix(p, [Dot] + rest, Dot);
    assert t == p + ([Dot] + rest);
    SplitAtFirst(t, Dot, 2);
    assert t[..i] == p[..i];
  }

  /** A raw payload holding a dot breaks the token: the second segment
      `unsign` reads is the payload cut at its first dot. */
  lemma DottedPayloadCut(jwt: Jwt, payload: string, header: JwtHeader, key: PrivateKey, draw: Draw)
    requires SignRaw(jwt, Some(payload), header, key, draw).Success?
    requires Dot in payload
    ensures var tokens := Split(SignRaw(jwt, Some(payload), header, key, draw).value, Dot, 3);
      |tokens| == 3 && tokens[1] == Before(payload, Dot) && tokens[1] != payload
  {
    var encodedHeader := Text(EncodeHeader(jwt, header));
    HeaderTextHasNoDot(EncodeHeader(jwt, header));
    var input := SigningInput(encodedHeader, payload);
    var signature := SignatureSegment(jwt, Lookup(header.alg).value, key, draw, input).value;
    var tail := payload + [Dot] + signature;
    JoinThree(encodedHeader, payload, signature);
    assert SignRaw(jwt, Some(payload), header, key, draw).value == encodedHeader + [Dot] + tail;
    SplitCons(encodedHeader, Dot, tail, 3);
    FirstPartCut(payload, signature);
    BeforeIsShorter(payload, Dot);
  }

  /** A message with only one dot is `null` without any decoding. */
  lemma OneDotIsNull<T>(jwt: Jwt, key: PrivateKey, draw: Draw, payloadType: Codec<T>)
    ensures Unsign(jwt, "a.b", key, draw, payloadType) == Success(None)
  {
    assert multiset("a.b")[Dot] == 1;
  }

  /** A message with three parts whose first part is not base64url makes
      `unsign` throw rather than answer `null`. */
  lemma UndecodableHeaderRaises<T>(jwt: Jwt, message: string, key: PrivateKey, draw: Draw, payloadType: Codec<T>)
    requires |Split(message, Dot, 3)| == 3 && Decode(Split(message, Dot, 3)[0]).None?
    ensures Unsign(jwt, message, key, draw, payloadType) == Failure(IllegalBase64)
  {
  }

  /** With limit 3, "a.b.c.d" splits into "a", "b" and "c.d". */
  lemma ThreeDotsSplit()
    ensures Split("a.b.c.d", Dot, 3) == ["a", "b", "c.d"]
  {
    assert "a.b.c.d" == "a" + [Dot] + "b.c.d";
    SplitCons("a", Dot, "b.c.d", 3);
    assert "b.c.d" == "b" + [Dot] + "c.d";
    SplitCons("b", Dot, "c.d", 2);
    assert Split("c.d", Dot, 1) == ["c.d"];
  }

  /** A message with three dots is not refused by the count: its first
      segment, here "a", is decoded, and being one lone digit it makes the
      decoder throw. */
  lemma ThreeDotsReachDecoder<T>(jwt: Jwt, key: PrivateKey, draw: Draw, payloadType: Codec<T>)
    ensures Unsign(jwt, "a.b.c.d", key, draw, payloadType) == Failure(IllegalBase64)
  {
    ThreeDotsSplit();
    LoneDigitRefused('a');
    assert "a" == ['a'];
    UndecodableHeaderRaises(jwt, "a.b.c.d", key, draw, payloadType);
  }
}

=== FILE: jwt_claim.dfy ===
/** `JwtClaim`: the ten claims the token code knows by name (the registered
    claims `sub`, `iss`, `aud`, `exp` and `iat` of section 4.1 of RFC 7519,
    and `email`, `picture`, `name`, `preferred_username` and `nonce` of
    OpenID Connect), each of which may be `null`. A Java object with setters
    becomes an immutable value here: a setter returns the updated claim set. */
module JwtClaims {
  import opened Wrappers
  import opened JavaObjects

  datatype JwtClaim = JwtClaim(
    email: Option<string>,
    picture: Option<string>,
    sub: Option<string>,
    iss: Option<string>,
    aud: Option<string>,
    name: Option<string>,
    preferredUsername: Option<string>,
    exp: Option<Long>,
    iat: Option<Long>,
    nonce: Option<string>)

  /** `new JwtClaim()`: every field `null`. */
  const Fresh: JwtClaim := JwtClaim(None, None, None, None, None, None, None, None, None, None)

  /** The names of the ten fields. */
  datatype Field = Email | Picture | Sub | Iss | Aud | Name | PreferredUsername | Exp | Iat | Nonce

  /** What a getter returns: a `String` or a `Long`, either possibly `null`. */
  datatype FieldValue = Text(text: Option<string>) | Number(number: Option<Long>)

  /** The getter of field `f`. */
  function Get(c: JwtClaim, f: Field): FieldValue {
    match f
    case Email => Text(c.email)
    case Picture => Text(c.picture)
    case Sub => Text(c.sub)
    case Iss => Text(c.iss)
    case Aud => Text(c.aud)
    case Name => Text(c.name)
    case PreferredUsername => Text(c.preferredUsername)
    case Exp => Number(c.exp)
    case Iat => Number(c.iat)
    case Nonce => Text(c.nonce)
  }

  /** `r` is `c` with at most field `f` changed. */
  predicate OnlyChanged(c: JwtClaim, r: JwtClaim, f: Field) {
    forall g :: g != f ==> Get(r, g) == Get(c, g)
  }

  /** `setEmail(email)`. */
  function SetEmail(c: JwtClaim, email: Option<string>): (r: JwtClaim)
    ensures Get(r, Email) == Text(email)
    ensures OnlyChanged(c, r, Email)
  {
    c.(email := email)
  }

  /** `setPicture(picture)`. */
  function SetPicture(c: JwtClaim, picture: Option<string>): (r: JwtClaim)
    ensures Get(r, Picture) == Text(picture)
    ensures OnlyChanged(c, r, Picture)
  {
    c.(picture := picture)
  }

  /** `setSub(sub)`. */
  function SetSub(c: JwtClaim, sub: Option<string>): (r: JwtClaim)
    ensures Get(r, Sub) == Text(sub)
    ensures OnlyChanged(c, r, Sub)
  {
    c.(sub := sub)
  }

  /** `setIss(iss)`. */
  function SetIss(c: JwtClaim, iss: Option<string>): (r: JwtClaim)
    ensures Get(r, Iss) == Text(iss)
    ensures OnlyChanged(c, r, Iss)
  {
    c.(iss := iss)
  }

  /** `setAud(aud)`. */
  function SetAud(c: JwtClaim, aud: Option<string>): (r: JwtClaim)
    ensures Get(r, Aud) == Text(aud)
    ensures OnlyChanged(c, r, Aud)
  {
    c.(aud := aud)
  }

  /** `setName(name)`. */
  function SetName(c: JwtClaim, name: Option<string>): (r: JwtClaim)
    ensures Get(r, Name) == Text(name)
    ensures OnlyChanged(c, r, Name)
  {
    c.(name := name)
  }

  /** `setPreferredUsername(preferredUsername)`. */
  function SetPreferredUsername(c: JwtClaim, preferredUsername: Option<string>): (r: JwtClaim)
    ensures Get(r, PreferredUsername) == Text(preferredUsername)
    ensures OnlyChanged(c, r, PreferredUsername)
  {
    c.(preferredUsername := preferredUsername)
  }

  /** `setExp(exp)`. */
  function SetExp(c: JwtClaim, exp: Option<Long>): (r: JwtClaim)
    ensures Get(r, Exp) == Number(exp)
    ensures OnlyChanged(c, r, Exp)
  {
    c.(exp := exp)
  }

  /** `setIat(iat)`. */
  function SetIat(c: JwtClaim, iat: Option<Long>): (r: JwtClaim)
    ensures Get(r, Iat) == Number(iat)
    ensures OnlyChanged(c, r, Iat)
  {
    c.(iat := iat)
  }

  /** `setNonce(nonce)`. */
  function SetNonce(c: JwtClaim, nonce: Option<string>): (r: JwtClaim)
    ensures Get(r, Nonce) == Text(nonce)
    ensures OnlyChanged(c, r, Nonce)
  {
    c.(nonce := nonce)
  }

  /** `equals(o)`: false for `null` and for other classes, otherwise
      `Objects.equals` field by field, in declaration order. */
  function Equals(c: JwtClaim, o: Obj<JwtClaim>): bool {
    match o
    case Null => false
    case OtherClass => false
    case Instance(other) =>
      && ObjectsEquals(c.email, other.email)
      && ObjectsEquals(c.picture, other.picture)
      && ObjectsEquals(c.sub, other.sub)
      && ObjectsEquals(c.iss, other.iss)
      && ObjectsEquals(c.aud, other.aud)
      && ObjectsEquals(c.name, other.name)
      && ObjectsEquals(c.preferredUsername, other.preferredUsername)
      && ObjectsEquals(c.exp, other.exp)
      && ObjectsEquals(c.iat, other.iat)
      && ObjectsEquals(c.nonce, other.nonce)
  }

  /** `hashCode()`: `Objects.hash` of the ten fields in declaration order. */
  function HashCode(c: JwtClaim): Int32 {
    ObjectsHash([
      HashOfString(c.email),
      HashOfString(c.picture),
      HashOfString(c.sub),
      HashOfString(c.iss),
      HashOfString(c.aud),
      HashOfString(c.name),
      HashOfString(c.preferredUsername),
      HashOfLong(c.exp),
      HashOfLong(c.iat),
      HashOfString(c.nonce)
    ])
  }

  /** Setting a field twice keeps the last value. */
  lemma LastSetWins(c: JwtClaim, first: Option<string>, second: Option<string>)
    ensures SetSub(SetSub(c, first), second) == SetSub(c, second)
  {
  }

  /** `equals` is reflexive. */
  lemma EqualsReflexive(c: JwtClaim)
    ensures Equals(c, Instance(c))
  {
  }

  /** `equals` is false for `null` and for objects of another class. */
  lemma EqualsRefusesNullAndOtherClasses(c: JwtClaim)
    ensures !Equals(c, Null) && !Equals(c, OtherClass)
  {
  }

  /** Two claim sets are equal exactly when every getter agrees on them. */
  lemma EqualsIffGettersAgree(c: JwtClaim, other: JwtClaim)
    ensures Equals(c, Instance(other)) <==> forall f :: Get(c, f) == Get(other, f)
  {
    if forall f :: Get(c, f) == Get(other, f) {
      GettersDetermine(c, other);
    }
  }

  /** The getters determine the claim set. */
  lemma GettersDetermine(c: JwtClaim, other: JwtClaim)
    requires forall f :: Get(c, f) == Get(other, f)
    ensures c == other
  {
    assert Get(c, Email) == Get(other, Email);
    assert Get(c, Picture) == Get(other, Picture);
    assert Get(c, Sub) == Get(other, Sub);
    assert Get(c, Iss) == Get(other, Iss);
    assert Get(c, Aud) == Get(other, Aud);
    assert Get(c, Name) == Get(other, Name);
    assert Get(c, PreferredUsername) == Get(other, PreferredUsername);
    assert Get(c, Exp) == Get(other, Exp);
    assert Get(c, Iat) == Get(other, Iat);
    assert Get(c, Nonce) == Get(other, Nonce);
  }

  /** `equals` is symmetric. */
  lemma EqualsSymmetric(c: JwtClaim, other: JwtClaim)
    ensures Equals(c, Instance(other)) <==> Equals(other, Instance(c))
  {
  }

  /** Equal claim sets have equal hash codes. */
  lemma HashConsistent(c: JwtClaim, other: JwtClaim)
    requires Equals(c, Instance(other))
    ensures HashCode(c) == HashCode(other)
  {
  }
}

=== FILE: jwt_header.dfy ===
/** `JwtHeader`: the two JOSE header parameters the token code reads, `alg`
    (section 4.1.1 of RFC 7515) and `kid` (section 4.1.4), each of which may
    be `null`. A Java object with setters becomes an immutable value here:
    a setter returns the updated header. */
module JwtHeaders {
  import opened Wrappers
  import opened JavaObjects

  datatype JwtHeader = JwtHeader(alg: Option<string>, kid: Option<string>)

  /** `new JwtHeader()`: both fields `null`. */
  const Fresh: JwtHeader := JwtHeader(None, None)

  /** `setAlg(alg)`: the header with `alg` replaced and `kid` kept. */
  function SetAlg(h: JwtHeader, alg: Option<string>): (r: JwtHeader)
    ensures r.alg == alg && r.kid == h.kid
  {
    h.(alg := alg)
  }

  /** `setKid(kid)`: the header with `kid` replaced and `alg` kept. */
  function SetKid(h: JwtHeader, kid: Option<string>): (r: JwtHeader)
    ensures r.kid == kid && r.alg == h.alg
  {
    h.(kid := kid)
  }

  /** `equals(o)`: false for `null` and for other classes, otherwise
      `Objects.equals` on `alg` and on `kid`. */
  function Equals(h: JwtHeader, o: Obj<JwtHeader>): bool {
    match o
    case Null => false
    case OtherClass => false
    case Instance(other) => ObjectsEquals(h.alg, other.alg) && ObjectsEquals(h.kid, other.kid)
  }

  /** `hashCode()`: `Objects.hash(alg, kid)`. */
  function HashCode(h: JwtHeader): Int32 {
    ObjectsHash([HashOfString(h.alg), HashOfString(h.kid)])
  }

  /** The two setters touch different fields, so their order does not matter. */
  lemma SettersCommute(h: JwtHeader, alg: Option<string>, kid: Option<string>)
    ensures SetKid(SetAlg(h, alg), kid) == SetAlg(SetKid(h, kid), alg)
  {
  }

  /** A header built from scratch holds what was set. */
  lemma BuiltHeader(alg: Option<string>, kid: Option<string>)
    ensures SetKid(SetAlg(Fresh, alg), kid) == JwtHeader(alg, kid)
    ensures SetAlg(Fresh, alg).kid == None
  {
  }

  /** `equals` is reflexive. */
  lemma EqualsReflexive(h: JwtHeader)
    ensures Equals(h, Instance(h))
  {
  }

  /** `equals` is false for `null` and for objects of another class. */
  lemma EqualsRefusesNullAndOtherClasses(h: JwtHeader)
    ensures !Equals(h, Null) && !Equals(h, OtherClass)
  {
  }

  /** Two headers are equal exactly when both fields are, which is value
      equality of the model. */
  lemma EqualsIffFields(h: JwtHeader, other: JwtHeader)
    ensures Equals(h, Instance(other)) <==> h.alg == other.alg && h.kid == other.kid
    ensures Equals(h, Instance(other)) <==> h == other
  {
  }

  /** `equals` is symmetric. */
  lemma EqualsSymmetric(h: JwtHeader, other: JwtHeader)
    ensures Equals(h, Instance(other)) <==> Equals(other, Instance(h))
  {
  }

  /** `equals` is transitive. */
  lemma EqualsTransitive(a: JwtHeader, b: JwtHeader, c: JwtHeader)
    requires Equals(a, Instance(b)) && Equals(b, Instance(c))
    ensures Equals(a, Instance(c))
  {
  }

  /** Equal headers have equal hash codes. */
  lemma HashConsistent(h: JwtHeader, other: JwtHeader)
    requires Equals(h, Instance(other))
    ensures HashCode(h) == HashCode(other)
  {
  }

  /** The hash code is `31^2 + 31 * hash(alg) + hash(kid)` in `int`
      arithmetic, the polynomial `Objects.hash` documents. */
  lemma HashCodeValue(h: JwtHeader)
    ensures HashCode(h) == WrapInt32(31 * 31 + 31 * HashOfString(h.alg) + HashOfString(h.kid))
  {
    var es := [HashOfString(h.alg), HashOfString(h.kid)];
    HashFoldIsWrappedHorner(1, es);
    var acc := 31 + es[0] as int;
    assert Horner(1, es) == Horner(acc, es[1..]);
  }
}

=== FILE: user_permission_principal.dfy ===
/** `UserPermissionPrincipal`: the identity the backend builds from a verified
    token, an account name (possibly `null`), the remaining claims as a
    profile, and a set of permission names. */
module UserPermissionPrincipals {
  import opened Wrappers
  import opened JsonValues

  datatype Principal = Principal(account: Option<string>, profiles: map<string, Value>, permissions: set<string>) {

    /** `getName()`. */
    function GetName(): Option<string> {
      account
    }

    /** `hasPermission(permission)`: membership in the permission set. */
    predicate HasPermission(permission: string) {
      permission in permissions
    }

    /** `getPermissions()`. */
    function GetPermissions(): set<string> {
      permissions
    }

    /** `getProfiles()`. */
    function GetProfiles(): map<string, Value> {
      profiles
    }
  }

  /** The accessors give back what the constructor was given, and
      `hasPermission` holds exactly for the members of the permission set. */
  lemma AccessorsReturnConstructorArguments(account: Option<string>, profiles: map<string, Value>, permissions: set<string>)
    ensures var p := Principal(account, profiles, permissions);
      && p.GetName() == account
      && p.GetProfiles() == profiles
      && p.GetPermissions() == permissions
      && (forall x :: p.HasPermission(x) <==> x in permissions)
  {
  }
}

=== FILE: wrappers.dfy ===
/** Option and Result, the model's stand-ins for Java's `null` returns and thrown exceptions. */
module Wrappers {

  /** `None` plays the part of a Java `null` reference. */
  datatype Option<+T> = None | Some(value: T) {

    predicate IsFailure() {
      None?
    }

    function PropagateFailure<U>(): Option<U>
      requires None?
    {
      None
    }

    function Extract(): T
      requires Some?
    {
      value
    }
  }

  /** `Failure` plays the part of an exception that escapes the Java method. */
  datatype Result<+R, +E> = Success(value: R) | Failure(error: E) {

    predicate IsFailure() {
      Failure?
    }

    function PropagateFailure<U>(): Result<U, E>
      requires Failure?
    {
      Failure(error)
    }

    function Extract(): R
      requires Success?
    {
      value
    }
  }
}
